=== FILE: README.md ===
# postgres-librato collector, modelled in Dafny

This project models the collector in `publish.py`. Once per cycle it connects to each configured PostgreSQL database in turn. For each one it:

- reads the server version from the `version()` banner;
- runs the statistics accessors, choosing the pre-9.2 or 9.2+ variant of the version-dependent queries;
- turns their rows into `postgres.pg_stat.*` gauge and counter points tagged with the database's `source`;
- closes the cursor and the connection.

After all databases it submits the cycle's queue to Librato. A database that cannot be reached, or whose accessors raise, is skipped without disturbing the others. A failed submit is printed and ignored.

Query replies, connect outcomes and the submit outcome are inputs. The queue is a sequence of points, and what the collector does and prints is recorded as a sequence of events.

The modules:

- `Outcomes` (outcomes.dfy): `Option` for SQL NULL, a failure-compatible `Result`, and the exception classes the per-source handler catches.
- `Text` (text.dfy):
  - `str.split`, `split_part` and `str.strip`;
  - Python 2's `int()` on a string, and the decimal text `str()` gives an integer.
- `Version` (version.dfy): `fetch_pg_version`, Python's tuple order, and the two `(9, 2)` gates.
- `Accessors` (accessors.dfy): what each `fetch_*` function does with the rows its query returns.
- `Metrics` (metrics.dfy): the points of one database, in the order of the `q.add` calls.
- `Sweeps` (sweep.dfy): the loop over the configured databases, generic in what a point and an event are.
- `Collector` (collector.dfy):
  - the `try` block as a chain of accessor outcomes;
  - the queries it actually sends;
  - one database's visit with its event log.
- `Cycle` (cycle.dfy): one cycle of `publish_forever`, and a finite run of cycles.

## Model

| member | source | states |
|---|---|---|
| Text.Split | publish.py:14 | `s.split(sep)` has at least one field, and no field contains the separator. |
| Text.JoinSplit | publish.py:14 | Joining the fields of `s.split(sep)` with `sep` gives `s` back, so splitting loses no character. |
| Text.SplitJoin | publish.py:14 | Splitting a join of separator-free fields gives back exactly those fields, in order. |
| Text.SplitPart | publish.py:12 | `split_part(s, ' ', n)` is the n-th field of `s` split at the separator and contains no separator. With fewer fields it is the empty string. |
| Text.StripSpec | publish.py:14 | The stripping inside `int()` keeps a contiguous piece of the text with no blank at either end, and everything dropped before or after it is blank. |
| Text.ParseInt | publish.py:14 | Python 2 `int()` raises `ValueError` and nothing else. Text that is blank after stripping raises. A negative result comes from text whose first non-blank character is `-`. |
| Text.ParseIntAccepts | publish.py:14 | Every text made of blanks, an optional sign, blanks only after a sign, at least one digit and blanks is accepted. Its value is the digits' value, negated exactly for a `-` sign. |
| Text.ParseIntShape | publish.py:14 | Conversely, every text `int()` accepts splits into blanks, an optional sign, blanks only after a sign, at least one digit and blanks, and its value is the digits' value with that sign. |
| Text.SignGapExamples | publish.py:14 | `int("- 1")` and `int("-\t1")` are both -1, and `int(" +7 ")` is 7. |
| Text.ParseIntRejects | publish.py:14 | Text with no blank anywhere and a non-digit after its first character raises `ValueError`. |
| Text.ParseIntDecimal | publish.py:14 | `int(str(n)) == n` for every integer, negative ones included. |
| Text.Decimal | publish.py:102 | `str(n)` of an integer is non-empty, has no blank at either end and no dot, and is all digits exactly when `n` is not negative. |
| Version.ParseComponents | publish.py:14 | `map(int, parts)` succeeds with one integer per part, in order, each the `int()` of its part. It fails with `ValueError` exactly when some part is not an integer literal. |
| Version.ComponentsParse | publish.py:14 | When every part parses, `map(int, parts)` gives exactly the tuple of their values. |
| Version.ParseVersion | publish.py:14 | The parse succeeds exactly when every dot-separated field of the token is an `int()` literal. The version then has one component per field, in order, each the field's value. Otherwise it raises `ValueError`. |
| Version.VersionRoundTrip | publish.py:14 | The dotted text of any non-empty version parses back to that version. |
| Version.BannerVersion | publish.py:11-14 | A banner `"<product> <a.b.c> <rest>"` yields the version (a, b, c). |
| Version.NonNumericWordFails | publish.py:11-14 | A second banner word with no dot and no blank anywhere, and a non-digit after its first character, such as `10beta1`, makes the version fetch raise. |
| Version.BetaBannerFails | publish.py:11-14 | `"PostgreSQL 10beta1"` makes the version fetch raise. |
| Version.SignedComponentBanner | publish.py:11-14 | A banner whose second word is `9.-<tab>1` yields the version (9, -1), because `int()` skips the blank after a sign. |
| Version.LexLessIff | publish.py:28 | Python's tuple `<` holds exactly when there is a common prefix after which the left tuple ends while the right goes on, or has a smaller component. Both directions are stated. |
| Version.AtLeastIsNotLess | publish.py:92 | Tuple `>=` is the negation of tuple `<` on every pair of versions. |
| Version.LexLessIrreflexive | publish.py:28 | No version is smaller than itself. |
| Version.LexLessTransitive | publish.py:28 | The tuple order is transitive. |
| Version.LexLessTotal | publish.py:28 | Any two distinct versions are ordered one way or the other. |
| Version.QueryEra | publish.py:28 | The legacy query variant is chosen exactly for the empty tuple, a major version below 9, a bare `(9,)`, or 9 with a minor version below 2. |
| Version.StatsEra | publish.py:92 | The extended statistics column list is chosen exactly for a major version above 9, or 9 with a minor version of at least 2. |
| Version.GatesAgree | publish.py:27-96 | The `<` gate of the states and times accessors and the `>=` gate of the statistics accessor agree on every version. |
| Version.GateBoundaries | publish.py:28 | `(9,)` and `(9,1,24)` are older than (9, 2). `(9,2)`, `(9,2,0)` and `(10,)` are not. |
| Accessors.FetchRatio | publish.py:17-25 | A ratio is returned exactly when the query succeeds with a non-NULL cell, and it is the ratio the database computed. A failing query raises its own error, and a NULL cell raises `TypeError`. |
| Accessors.Underscored | publish.py:43 | `replace(' ', '_')` keeps the length, turns every space into `_`, keeps every other character in place, and leaves no space. |
| Accessors.UnderscoredIdempotent | publish.py:43 | Replacing spaces a second time changes nothing. |
| Accessors.UnderscoredFixesOnlySpaceless | publish.py:43 | The replacement leaves a label unchanged exactly when it contains no space. |
| Accessors.StateLabel | publish.py:41-43 | A NULL state becomes `"null"`. Otherwise the label has its spaces replaced by underscores. No label contains a space. |
| Accessors.BackendStates | publish.py:39-45 | One pair per row, in row order. Each count is kept and each label is the normalised state. |
| Accessors.FetchStates | publish.py:27-45 | Succeeds exactly when the query does, and otherwise raises the query's own error. On success there is one pair per row. Each keeps its row's count, and its label has no space, reads `"null"` for a NULL state, and otherwise is the state with every space replaced by `_` and every other character kept in place. |
| Accessors.StateLabels | publish.py:39-45 | Each output label has no space, reads `"null"` for a NULL state, and otherwise has the state's length with every space replaced by `_` and every other character kept in place. |
| Accessors.SpacedStateLabel | publish.py:43 | A state such as `idle in` is reported with an underscore in place of the space. |
| Accessors.MaxOf | publish.py:61 | `max(times)` is one of the times and no time exceeds it. |
| Accessors.MeanBounds | publish.py:62 | The mean of a non-empty list lies between its minimum and its maximum. |
| Accessors.MiddleIndex | publish.py:63 | `int(len(times) / 2)` under true division is the truncated half and a valid index. |
| Accessors.BackendTimes | publish.py:59-70 | No times gives nothing. Otherwise there are exactly three metrics in the order max, mean, median. The max is a time bounding all others, the mean times n is the sum, and the median is the element at index ⌊n/2⌋. |
| Accessors.FetchTimes | publish.py:52-70 | Succeeds exactly when the query does, and otherwise raises the query's own error. No times gives nothing. Otherwise the result is max, mean and median in that order: the max is one of the times and bounds them all, the mean is the sum over the count, and the median is the time at index ⌊n/2⌋. |
| Accessors.AscendingTimes | publish.py:57-63 | For times in the ascending order the query returns, the max is the last time. The median and the mean both lie between the first and the last. |
| Accessors.UpperMedianExample | publish.py:59-68 | `[1, 2, 3, 4]` gives max 4, mean 2.5 and median 3: the upper median, not an average. |
| Accessors.Show | publish.py:76-77 | `str()` of a sum is text that `int()` reads back as that sum. A NULL sum becomes `"None"`, which `int()` rejects. |
| Accessors.SeqScans | publish.py:72-78 | Two counters, sequential scans first, each the text of its sum or `"None"`. |
| Accessors.FetchScans | publish.py:72-78 | Succeeds exactly when the query does, and otherwise raises the query's own error. On success there are two counters, sequential scans first. Each is text that `int()` reads back as its sum, or `"None"` for a NULL sum. |
| Accessors.DbStatsFields | publish.py:81-96 | 9 fields before 9.2 and 11 from 9.2 on. The first nine are the base list. The two extra metrics are the temp file bytes and the block read time. |
| Accessors.FieldListsShareBase | publish.py:81-96 | Both eras' field lists start with the same nine fields. |
| Accessors.MetricNames | publish.py:101 | The metric names zipped with the row are the fields' metric names, one per field, in field order. |
| Accessors.Round | publish.py:102 | Python 2's `round` gives the nearest integer, with halves going away from zero. |
| Accessors.RoundExamples | publish.py:102 | 4.4 rounds to 4, 4.5 to 5, 2.5 to 3, -2.5 to -3 and -0.4 to 0. |
| Accessors.Counters | publish.py:100-103 | `zip` stops at the shorter of the names and the row. A NULL among the zipped values raises `TypeError`, and no NULL means success. Each counter keeps its name's position, and its text reads back as the rounded value. |
| Accessors.DbStats | publish.py:97-103 | Succeeds exactly when there is a row and no NULL among the first row's zipped values. No row raises `IndexError` at `res[0]`, and a NULL raises `TypeError`. On success there is one counter per zipped value, named in the order of the era's field list, and its text reads back as the rounded value. |
| Accessors.FetchDbStats | publish.py:80-103 | A failing query raises its own error. Otherwise it succeeds exactly when there is a row with no NULL among its zipped values. The counters are named in the order of the era's field list, and each reads back as its value rounded. |
| Accessors.DbStatsComplete | publish.py:80-103 | A complete first row gives 9 counters before 9.2 and 11 from 9.2 on. They are named in field order, each reading back as its value rounded. |
| Metrics.Emit | publish.py:146-154 | A `q.add` loop queues one point per pair, in order, each with the common prefix, the pair's name and value, the loop's type and the source tag. |
| Metrics.ActivityPoints | publish.py:144-148 | Index hits, then cache hits, then one `backends_<state>` gauge per state in order, then `backends_waiting`. |
| Metrics.GaugePoints | publish.py:144-150 | The activity points, followed by one gauge per time metric. |
| Metrics.CounterPoints | publish.py:151-154 | The scan counters, followed by the statistics counters. |
| Metrics.Points | publish.py:144-154 | One database queues as many points as its gauges, then one per scan counter and one per statistics counter. |
| Metrics.PointsOrder | publish.py:144-154 | The full order of one database's points: index hits, cache hits, the states, the waiting count, the time metrics, the scans, then the statistics. Each has its name, value and type. |
| Metrics.PointsTaggedAndTyped | publish.py:144-154 | Every point carries the source tag and the `postgres.pg_stat.` prefix. A point is a counter exactly when it lies in the scans and statistics part. |
| Collector.PlanVariantsAgree | publish.py:131-139 | Every version-dependent query of a plan is sent in the variant the `<` gate selects. |
| Collector.GatingExamples | publish.py:28-96 | A 9.1 server gets the legacy states query and the base statistics columns. A 9.2 server gets the `state` query and the extended columns. |
| Collector.UntilRaise | publish.py:130-139 | Queries run in order up to and including the first whose accessor raises. None before it raises, and nothing after it runs. |
| Collector.ChainTrace | publish.py:130-157 | On success the version query and the whole plan ran and none raised. On failure the last query that ran is the one the abort names, and its accessor raised. |
| Collector.ChainSucceedsIff | publish.py:130-157 | The `try` block succeeds exactly when no scheduled accessor raises. |
| Collector.ChainReadings | publish.py:131-139 | A successful fetch holds the value every accessor returned: the version, both ratios, the waiting count and the scans. Each gated accessor is read in the variant the fetched version selects. |
| Collector.RatiosRead | publish.py:133-134 | The ratios of a successful fetch are the cells the two ratio queries returned, so neither cell was NULL. |
| Collector.NullRatioAborts | publish.py:130-134 | On a server whose version parses, a NULL index-hit ratio aborts the fetch with `TypeError` at the index-hit query. |
| Collector.ScheduleOfVersion | publish.py:131-139 | Once the version is known, the schedule is the eight accessor queries in source order with the gated variants. The version query comes first and appears only once. |
| Collector.TraceOfPlan | publish.py:130-139 | Once the version is known, the fetch fails exactly at the first scheduled query whose accessor raises. |
| Collector.FailsAt | publish.py:130-139 | When query k is the first to raise, the fetch fails with an abort naming query k. |
| Collector.PassesAll | publish.py:130-139 | When no scheduled query raises, the fetch succeeds with the fetched version. |
| Collector.Visit | publish.py:127-160 | After a connect nothing escapes. Points are queued only when the whole `try` block succeeded, and they are then exactly that database's points. The log starts with the connect and ends with the cursor close and the connection close. |
| Collector.VisitFailure | publish.py:156-160 | After a failure the log shows the query whose accessor raised, then the printed exception, then the two closes. |
| Collector.VisitResources | publish.py:123-160 | A visit connects once, closes the cursor once and closes the connection once, whether or not an accessor raised. |
| Collector.SourceResources | publish.py:122-160 | A refused or escaped connect opens and closes nothing. A successful one is followed by exactly one cursor close and one connection close. |
| Collector.SourcePointsTagged | publish.py:128-154 | Every point a database queues carries its `source` and the common prefix. |
| Sweeps.SweepEscapes | publish.py:121-160 | The loop over the databases lets an exception escape exactly when one database's run did. |
| Sweeps.SweepAppend | publish.py:121-160 | With no escape in the first part, the loop over `a + b` queues and logs what the loop over `a` does, followed by what the loop over `b` does. |
| Sweeps.SourceIsolated | publish.py:121-160 | A run's points and events sit between those of the runs before it and after it. |
| Sweeps.EmptyRunContributesNothing | publish.py:121-160 | A run that queued nothing leaves the batch as if it were absent. |
| Sweeps.BatchFromRuns | publish.py:121-160 | Every queued point comes from one of the runs. |
| Sweeps.SweepSingle | publish.py:121-160 | The loop over one run queues that run's points, logs its events, and escapes exactly when the run did. |
| Cycle.SweepSources | publish.py:121-160 | The cycle's loop over the databases escapes exactly when some connect raised something other than `OperationalError`. |
| Cycle.SteadyIsCalm | publish.py:122-126 | No connect raising an uncaught exception is the same as no run escaping. |
| Cycle.SweepOne | publish.py:121-160 | The loop over a single database gives that database's points and log, and escapes exactly when its connect raised an uncaught exception. |
| Cycle.SourcesIsolated | publish.py:121-160 | A database's points and events go between those of the databases before and after it, whatever the others did, provided neither an earlier connect nor its own raised an uncaught exception. The ones after a failing database are still visited. |
| Cycle.FailingSourceContributesNothing | publish.py:122-157 | A refused database, or one whose accessors raise, leaves the batch exactly as without it. |
| Cycle.SourceContribution | publish.py:122-157 | A database's queued points are its full point list when it connected and every accessor succeeded, and nothing otherwise. |
| Cycle.BatchIsContributions | publish.py:120-160 | Without an escaping connect, the batch is the concatenation, in config order, of the full point lists of the databases that connected and whose accessors all succeeded. |
| Cycle.BatchFromContributors | publish.py:121-160 | Every queued point carries the tag of a database that connected and whose accessors all succeeded. |
| Cycle.SweepResources | publish.py:121-160 | Over a whole cycle, the connects, cursor closes and connection closes each equal the number of connections opened. |
| Cycle.RunCycle | publish.py:119-165 | A cycle submits exactly when no connect escaped. It then submits exactly its sweep's batch, and whether delivery worked is the submit outcome. |
| Cycle.SubmitFailureSwallowed | publish.py:162-165 | A failing submit still completes the cycle, with the same batch and log as a successful one. |
| Cycle.UntilAborted | publish.py:119-167 | The loop runs cycles in order. Every cycle but the last submitted, and it stops only after an aborted cycle. |
| Cycle.FreshQueueEachCycle | publish.py:120-165 | Each cycle's batch is exactly that cycle's sweep, whatever earlier cycles queued or delivered. |
| Cycle.LoopRunsUntilEscape | publish.py:119-167 | While no connect escapes, every round gets its cycle, whether or not the submits succeed. |

## Left out

- SQL text and what the database computes are not modelled. This covers the hit ratios, the classification of `current_query` before 9.2, `GREATEST`, `ORDER BY` and `count(*)`. Each query's rows, or the error it raises, are inputs to the model. `Accessors.AscendingTimes` assumes the ascending order the query promises.
- Floating point is not modelled: run times and ratios are exact reals, so the mean is exact and `round` is Python 2's rule applied to reals.
- `long()` does not appear, because Dafny integers are unbounded.
- The Librato client, `new_queue`, `add` and `submit` and the network are not modelled. The queue is a sequence of points, and the submit outcome is a boolean per cycle. `librato_client.new_queue()`, `conn.cursor()`, `q.add`, `cur.close()` and `conn.close()` are assumed not to raise.
- `print(repr(e))` output is not modelled as text. The model records events that name the failure.
- `time.sleep` and the interval are not modelled, and the infinite `while True` becomes a finite sequence of rounds (`Cycle.RunCycles`).
- Configuration loading, command-line arguments and `dsn_for_db` formatting are not modelled. A configured database is its `source` tag and database name, and the connect outcome is an input.
- A `KeyError` from `db["source"]` or `db["database"]` is not modelled: every configured database is assumed to have both keys.
- The stubs `fetch_index_sizes` and `fetch_tables_sizes` are not modelled. They send nothing and their result is unused.
- `fetch_waiting_backends` is given as its outcome: an integer or the query's error. `int()` of a `count(*)` cannot fail.
- Where a reader might expect a more forgiving collector, the model follows the code as written:
  - only `OperationalError` is caught around the connect, and any other exception there escapes `publish_forever`;
  - the waiting query is not version-gated;
  - the connection is closed only after a successful connect;
  - `round` rounds halves away from zero.
- Collector.Stage: its contract only tags an error with its query, so it has no row here. What the tagging means is stated by `Collector.ChainTrace`.
- Collector.CollectSource: its contract names the cases of a connect outcome, so it has no row here. What a database contributes and opens is stated by `Cycle.SourceContribution`, `Collector.SourceResources` and `Collector.Visit`.
- Collector.Chain: the `try` block of publish.py:130-139 carries no contract of its own. Its meaning is stated by `Collector.ChainTrace`, `Collector.ChainSucceedsIff` and `Collector.ChainReadings`.
- Sweeps.SweepRuns: the loop over the databases, publish.py:121-160, carries no contract of its own. Its meaning is stated by `Sweeps.SweepEscapes`, `Sweeps.SweepAppend`, `Sweeps.SourceIsolated` and `Sweeps.BatchFromRuns`.
- Version.LexLess: Python's tuple `<` (publish.py:28) is a predicate with no contract. Its meaning is stated by `Version.LexLessIff`, `Version.LexLessIrreflexive`, `Version.LexLessTransitive` and `Version.LexLessTotal`.
- Version.LexAtLeast: Python's tuple `>=` (publish.py:92) is a predicate with no contract. Its meaning is stated by `Version.AtLeastIsNotLess`.
- Version.FetchVersion: carries no contract of its own. Its behaviour is stated by `Version.BannerVersion`, `Version.NonNumericWordFails` and `Version.BetaBannerFails`.
- Cycle.RunCycles: the model stops after a finite number of rounds. The process itself stops only at an escaping exception or external termination.

=== FILE: accessors.dfy ===
/** The Python-side post-processing of each statistics accessor: what
    `fetch_index_hits`, `fetch_cache_gits`, `fetch_backend_states`,
    `fetch_backend_times`, `fetch_seq_scans` and `fetch_db_stats` do with the
    rows a query returns. The rows themselves are inputs. */
module Accessors {
  import opened Outcomes
  import opened Text
  import opened Version

  // ---------------------------------------------------------------------
  // Hit ratios
  // ---------------------------------------------------------------------

  /** `float(res[0][0])` on the single cell of a ratio query: the ratio the
      database computed, or `TypeError` when it is NULL (no user indexes or
      tables to sum over). */
  function FetchRatio(reply: Result<Option<real>, Fault>): (r: Result<real, Fault>)
    ensures r.Ok? <==> reply.Ok? && reply.value.Some?
    ensures r.Ok? ==> r.value == reply.value.value
    ensures r.Err? ==> r.error == (if reply.Err? then reply.error else TypeError)
  {
    var cell :- reply;
    match cell
    case None => Err(TypeError)
    case Some(ratio) => Ok(ratio)
  }

  // ---------------------------------------------------------------------
  // Backend states
  // ---------------------------------------------------------------------

  /** One row of the grouped `pg_stat_activity` query: a state label, NULL
      for backends without one, and how many backends are in it. */
  datatype StateRow = StateRow(state: Option<string>, count: int)

  /** `s.replace(' ', '_')`. */
  function Underscored(s: string): (t: string)
    ensures |t| == |s|
    ensures forall i :: 0 <= i < |s| ==> t[i] == (if s[i] == ' ' then '_' else s[i])
    ensures ' ' !in t
  {
    if |s| == 0 then ""
    else [if s[0] == ' ' then '_' else s[0]] + Underscored(s[1..])
  }

  /** Replacing spaces a second time changes nothing. */
  lemma UnderscoredIdempotent(s: string)
    ensures Underscored(Underscored(s)) == Underscored(s)
  {
  }

  /** Replacement works character by character, so it distributes over
      concatenation. */
  lemma UnderscoredAppend(a: string, b: string)
    ensures Underscored(a + b) == Underscored(a) + Underscored(b)
  {
    var l, r := Underscored(a + b), Underscored(a) + Underscored(b);
    assert forall i :: 0 <= i < |l| ==> l[i] == r[i];
  }

  /** A label is left as it is exactly when it has no space to replace. */
  lemma UnderscoredFixesOnlySpaceless(s: string)
    ensures Underscored(s) == s <==> ' ' !in s
  {
    if ' ' in s {
      var i :| 0 <= i < |s| && s[i] == ' ';
      assert Underscored(s)[i] != s[i];
    }
  }

  /** The metric label of one state: NULL becomes `"null"`, then every space
      becomes an underscore. */
  function StateLabel(state: Option<string>): (tag: string)
    ensures ' ' !in tag
    ensures state.None? ==> tag == "null"
    ensures state.Some? ==> tag == Underscored(state.value)
  {
    match state
    case None => Underscored("null")
    case Some(s) => Underscored(s)
  }

  /** The loop of `fetch_backend_states`: one (label, count) pair per row,
      in row order. */
  function BackendStates(rows: seq<StateRow>): (states: seq<(string, int)>)
    ensures |states| == |rows|
    ensures forall i :: 0 <= i < |rows| ==> states[i].1 == rows[i].count
    ensures forall i :: 0 <= i < |rows| ==> states[i].0 == StateLabel(rows[i].state)
  {
    if |rows| == 0 then []
    else [(StateLabel(rows[0].state), rows[0].count)] + BackendStates(rows[1..])
  }

  /** `fetch_backend_states` as a whole: the query's own error, or the
      labelled counts of its rows. */
  function FetchStates(reply: Result<seq<StateRow>, Fault>): (r: Result<seq<(string, int)>, Fault>)
    ensures r.Ok? <==> reply.Ok?
    ensures r.Err? ==> r.error == reply.error
    ensures r.Ok? ==> |r.value| == |reply.value|
    ensures r.Ok? ==> forall i :: 0 <= i < |r.value| ==>
      && r.value[i].1 == reply.value[i].count
      && ' ' !in r.value[i].0
      && (reply.value[i].state.None? ==> r.value[i].0 == "null")
      && (reply.value[i].state.Some? ==> |r.value[i].0| == |reply.value[i].state.value|)
      && (reply.value[i].state.Some? ==> forall j :: 0 <= j < |reply.value[i].state.value| ==>
            r.value[i].0[j] == (if reply.value[i].state.value[j] == ' ' then '_' else reply.value[i].state.value[j]))
  {
    var rows :- reply;
    Ok(BackendStates(rows))
  }

  /** What a caller sees of the labels: none contains a space, NULL reads
      `"null"`, and otherwise the label is the state with spaces replaced and
      every other character kept in place. */
  lemma StateLabels(rows: seq<StateRow>, i: nat)
    requires i < |rows|
    ensures ' ' !in BackendStates(rows)[i].0
    ensures rows[i].state.None? ==> BackendStates(rows)[i].0 == "null"
    ensures rows[i].state.Some? ==>
      var s, shown := rows[i].state.value, BackendStates(rows)[i].0;
      |shown| == |s| &&
      forall j :: 0 <= j < |s| ==> (s[j] == ' ' ==> shown[j] == '_') && (s[j] != ' ' ==> shown[j] == s[j])
  {
  }

  /** Two space-free words joined by a space, such as the `idle in` of
      `idle in transaction`, are reported joined by an underscore. */
  lemma SpacedStateLabel(a: string, b: string)
    requires ' ' !in a && ' ' !in b
    ensures StateLabel(Some(a + " " + b)) == a + "_" + b
  {
    UnderscoredAppend(a + " ", b);
    UnderscoredAppend(a, " ");
    UnderscoredFixesOnlySpaceless(a);
    UnderscoredFixesOnlySpaceless(b);
    assert Underscored(" ") == "_";
  }

  // ---------------------------------------------------------------------
  // Backend run times
  // ---------------------------------------------------------------------

  /** `ORDER BY 1` makes the run times arrive in ascending order. */
  ghost predicate Ascending(xs: seq<real>)
  {
    forall i, j :: 0 <= i <= j < |xs| ==> xs[i] <= xs[j]
  }

  /** Python's `max(xs)`. */
  function MaxOf(xs: seq<real>): (m: real)
    requires |xs| > 0
    ensures m in xs
    ensures forall i :: 0 <= i < |xs| ==> xs[i] <= m
  {
    if |xs| == 1 then xs[0]
    else
      var rest := MaxOf(xs[1..]);
      if xs[0] >= rest then xs[0] else rest
  }

  /** Python's `min(xs)`, used only to state bounds. */
  function MinOf(xs: seq<real>): (m: real)
    requires |xs| > 0
    ensures m in xs
    ensures forall i :: 0 <= i < |xs| ==> m <= xs[i]
  {
    if |xs| == 1 then xs[0]
    else
      var rest := MinOf(xs[1..]);
      if xs[0] <= rest then xs[0] else rest
  }

  /** Python's `sum(xs)`. */
  function Sum(xs: seq<real>): real
  {
    if |xs| == 0 then 0.0 else xs[0] + Sum(xs[1..])
  }

  /** `a * n`, kept as a named term so that the solver does not mix the
      multiplication with the unfolding of `MinOf`, `MaxOf` and `Sum`. */
  function Scale(a: real, n: nat): real
  {
    a * n as real
  }

  /** Adding one more value to a scaled bound. */
  lemma ScaleStep(a: real, n: nat)
    ensures Scale(a, n + 1) == Scale(a, n) + a
  {
  }

  /** A smaller factor gives a smaller scaled bound. */
  lemma ScaleMonotone(a: real, b: real, n: nat)
    requires a <= b
    ensures Scale(a, n) <= Scale(b, n)
  {
    assert Scale(b, n) - Scale(a, n) == (b - a) * n as real;
  }

  /** The sum of n values lies between n times the smallest and n times the
      largest. */
  lemma {:induction false} SumBounds(xs: seq<real>)
    requires |xs| > 0
    ensures Scale(MinOf(xs), |xs|) <= Sum(xs) <= Scale(MaxOf(xs), |xs|)
  {
    var rest := xs[1..];
    assert Sum(xs) == xs[0] + Sum(rest);
    if |xs| == 1 {
    } else {
      SumBounds(rest);
      var lo, hi := MinOf(xs), MaxOf(xs);
      ScaleMonotone(lo, MinOf(rest), |rest|);
      ScaleMonotone(MaxOf(rest), hi, |rest|);
      ScaleStep(lo, |rest|);
      ScaleStep(hi, |rest|);
    }
  }

  /** Dividing scaled bounds by the positive count. */
  lemma DivideBounds(lo: real, hi: real, s: real, n: nat)
    requires n > 0 && Scale(lo, n) <= s <= Scale(hi, n)
    ensures lo <= s / n as real <= hi
  {
    assert (s / n as real) * n as real == s;
  }

  /** The mean of n values lies between the smallest and the largest. */
  lemma MeanBounds(xs: seq<real>)
    requires |xs| > 0
    ensures MinOf(xs) <= Sum(xs) / |xs| as real <= MaxOf(xs)
  {
    SumBounds(xs);
    DivideBounds(MinOf(xs), MaxOf(xs), Sum(xs), |xs|);
  }

  /** `int(len(times) / 2)` under true division: the truncated half. */
  function MiddleIndex(n: nat): (i: nat)
    requires n > 0
    ensures i == n / 2 && i < n
  {
    var half := (n as real) / 2.0;
    assert (n / 2) as real <= half < (n / 2 + 1) as real;
    half.Floor
  }

  /** `fetch_backend_times`: nothing when no backend is active; otherwise
      max, mean and median, in that order. */
  function BackendTimes(times: seq<real>): (r: seq<(string, real)>)
    ensures |times| == 0 <==> r == []
    ensures |times| > 0 ==>
      && |r| == 3
      && r[0].0 == "max_query_time"
      && r[1].0 == "mean_query_time"
      && r[2].0 == "median_query_time"
    ensures |times| > 0 ==> r[0].1 in times && forall i :: 0 <= i < |times| ==> times[i] <= r[0].1
    ensures |times| > 0 ==> r[1].1 * |times| as real == Sum(times)
    ensures |times| > 0 ==> r[2].1 == times[|times| / 2]
  {
    if |times| == 0 then []
    else
      var n := |times|;
      [ ("max_query_time", MaxOf(times)),
        ("mean_query_time", Sum(times) / n as real),
        ("median_query_time", times[MiddleIndex(n)]) ]
  }

  /** `fetch_backend_times` as a whole: the query's own error, or the
      summary of the run times it returned. */
  function FetchTimes(reply: Result<seq<real>, Fault>): (r: Result<seq<(string, real)>, Fault>)
    ensures r.Ok? <==> reply.Ok?
    ensures r.Err? ==> r.error == reply.error
    ensures r.Ok? ==> (r.value == [] <==> reply.value == [])
    ensures r.Ok? && reply.value != [] ==>
      var times, n := reply.value, |reply.value|;
      && |r.value| == 3
      && r.value[0] == ("max_query_time", r.value[0].1)
      && r.value[0].1 in times && (forall i :: 0 <= i < n ==> times[i] <= r.value[0].1)
      && r.value[1] == ("mean_query_time", Sum(times) / n as real)
      && r.value[2] == ("median_query_time", times[n / 2])
  {
    var times :- reply;
    Ok(BackendTimes(times))
  }

  /** With the query's ascending order: the maximum is the last run time, and
      both mean and median lie between the shortest and the longest. */
  lemma AscendingTimes(times: seq<real>)
    requires |times| > 0 && Ascending(times)
    ensures BackendTimes(times)[0].1 == times[|times| - 1]
    ensures times[0] <= BackendTimes(times)[2].1 <= times[|times| - 1]
    ensures times[0] <= BackendTimes(times)[1].1 <= times[|times| - 1]
  {
    var n := |times|;
    MeanBounds(times);
    assert MinOf(times) == times[0];
    assert MaxOf(times) == times[n - 1];
  }

  /** For an even count the median is the upper of the two middle values,
      not their average: [1, 2, 3, 4] gives 3. */
  lemma UpperMedianExample()
    ensures BackendTimes([1.0, 2.0, 3.0, 4.0]) ==
      [("max_query_time", 4.0), ("mean_query_time", 2.5), ("median_query_time", 3.0)]
  {
    var xs := [1.0, 2.0, 3.0, 4.0];
    assert Sum(xs) == 10.0;
    assert MaxOf(xs) == 4.0;
  }

  // ---------------------------------------------------------------------
  // Sequential and index scans
  // ---------------------------------------------------------------------

  /** The single row of `SELECT sum(seq_scan), sum(idx_scan)`: each sum is
      NULL when there are no user tables. */
  datatype ScanSums = ScanSums(seqScans: Option<int>, idxScans: Option<int>)

  /** Python's `str()` of a counter cell: its decimal text, or `"None"`. */
  function Show(cell: Option<int>): (s: string)
    ensures cell.Some? ==> ParseInt(s) == Ok(cell.value)
    ensures cell.None? ==> s == "None" && ParseInt(s).Err?
  {
    match cell
    case Some(n) => ParseIntDecimal(n); Decimal(n)
    case None =>
      StripUnpadded("None");
      "None"
  }

  /** `fetch_seq_scans`: the two sums as text, sequential scans first. */
  function SeqScans(sums: ScanSums): (r: seq<(string, string)>)
    ensures |r| == 2
    ensures r[0].0 == "sequential_scans" && r[1].0 == "index_scans"
    ensures sums.seqScans.Some? ==> ParseInt(r[0].1) == Ok(sums.seqScans.value)
    ensures sums.idxScans.Some? ==> ParseInt(r[1].1) == Ok(sums.idxScans.value)
    ensures sums.seqScans.None? ==> r[0].1 == "None"
    ensures sums.idxScans.None? ==> r[1].1 == "None"
  {
    [("sequential_scans", Show(sums.seqScans)), ("index_scans", Show(sums.idxScans))]
  }

  /** `fetch_seq_scans` as a whole: the query's own error, or the two sums. */
  function FetchScans(reply: Result<ScanSums, Fault>): (r: Result<seq<(string, string)>, Fault>)
    ensures r.Ok? <==> reply.Ok?
    ensures r.Err? ==> r.error == reply.error
    ensures r.Ok? ==>
      var sums := reply.value;
      && |r.value| == 2
      && r.value[0].0 == "sequential_scans" && r.value[1].0 == "index_scans"
      && (sums.seqScans.Some? ==> ParseInt(r.value[0].1) == Ok(sums.seqScans.value))
      && (sums.idxScans.Some? ==> ParseInt(r.value[1].1) == Ok(sums.idxScans.value))
      && (sums.seqScans.None? ==> r.value[0].1 == "None")
      && (sums.idxScans.None? ==> r.value[1].1 == "None")
  {
    var sums :- reply;
    Ok(SeqScans(sums))
  }

  // ---------------------------------------------------------------------
  // Database statistics
  // ---------------------------------------------------------------------

  /** A column of `pg_stat_database` and the metric name it is reported as. */
  datatype Field = Field(column: string, metric: string)

  /** The nine columns every server has. */
  const BaseFields: seq<Field> := [
    Field("xact_commit", "transactions_committed"),
    Field("xact_rollback", "transactions_rolled_back"),
    Field("blks_read", "disk_blocks_read"),
    Field("blks_hit", "disk_blocks_cache_hit"),
    Field("tup_returned", "rows_returned"),
    Field("tup_fetched", "rows_fetched"),
    Field("tup_inserted", "rows_inserted"),
    Field("tup_updated", "rows_updated"),
    Field("tup_deleted", "rows_deleted")
  ]

  /** The two columns added in 9.2. */
  const ExtendedFields: seq<Field> := [
    Field("temp_bytes", "temp_file_bytes"),
    Field("blk_read_time", "block_read_time")
  ]

  /** The field list of `fetch_db_stats` for a server of the given era. */
  function DbStatsFields(era: Era): (fields: seq<Field>)
    ensures |fields| == if era == Legacy then 9 else 11
    ensures fields[..9] == BaseFields
    ensures era == Modern ==> fields[9].metric == "temp_file_bytes" && fields[10].metric == "block_read_time"
  {
    if era == Legacy then BaseFields else BaseFields + ExtendedFields
  }

  /** The column lists of the two eras share their first nine entries. */
  lemma FieldListsShareBase()
    ensures DbStatsFields(Modern)[..9] == DbStatsFields(Legacy)
  {
  }

  function MetricNames(fields: seq<Field>): (names: seq<string>)
    ensures |names| == |fields|
    ensures forall i :: 0 <= i < |fields| ==> names[i] == fields[i].metric
  {
    if |fields| == 0 then [] else [fields[0].metric] + MetricNames(fields[1..])
  }

  /** Python 2's `round(x)`: the nearest integer, halves away from zero. */
  function Round(x: real): (n: int)
    ensures x >= 0.0 ==> n as real - 0.5 <= x < n as real + 0.5
    ensures x < 0.0 ==> n as real - 0.5 < x <= n as real + 0.5
  {
    if x >= 0.0 then (x + 0.5).Floor else -((-x + 0.5).Floor)
  }

  /** Round half away from zero on the usual examples. */
  lemma RoundExamples()
    ensures Round(4.4) == 4 && Round(4.5) == 5 && Round(2.5) == 3
    ensures Round(-2.5) == -3 && Round(-0.4) == 0
  {
  }

  function Min(a: int, b: int): int
  {
    if a <= b then a else b
  }

  /** The loop over `zip(names, row)`: each value is rounded and written as
      decimal text; a NULL among the zipped values raises `TypeError`. */
  function Counters(names: seq<string>, row: seq<Option<real>>): (r: Result<seq<(string, string)>, Fault>)
    ensures r.Ok? <==> forall i :: 0 <= i < Min(|names|, |row|) ==> row[i].Some?
    ensures r.Err? ==> r.error == TypeError
    ensures r.Ok? ==> |r.value| == Min(|names|, |row|)
    ensures r.Ok? ==> forall i :: 0 <= i < |r.value| ==>
      r.value[i].0 == names[i] && ParseInt(r.value[i].1) == Ok(Round(row[i].value))
  {
    if |names| == 0 || |row| == 0 then Ok([])
    else
      match row[0]
      case None => Err(TypeError)
      case Some(x) =>
        var rest :- Counters(names[1..], row[1..]);
        ParseIntDecimal(Round(x));
        Ok([(names[0], Decimal(Round(x)))] + rest)
  }

  /** `fetch_db_stats` after its query: `res[0]` raises `IndexError` when the
      database name matched no row; otherwise the first row is zipped with the
      metric names. */
  function DbStats(rows: seq<seq<Option<real>>>, era: Era): (r: Result<seq<(string, string)>, Fault>)
    ensures r.Ok? <==> |rows| > 0 && forall i :: 0 <= i < Min(|DbStatsFields(era)|, |rows[0]|) ==> rows[0][i].Some?
    ensures r.Err? ==> r.error == (if |rows| == 0 then IndexError else TypeError)
    ensures r.Ok? ==> |r.value| == Min(|DbStatsFields(era)|, |rows[0]|)
    ensures r.Ok? ==> forall i :: 0 <= i < |r.value| ==>
      r.value[i].0 == DbStatsFields(era)[i].metric && ParseInt(r.value[i].1) == Ok(Round(rows[0][i].value))
  {
    if |rows| == 0 then Err(IndexError)
    else Counters(MetricNames(DbStatsFields(era)), rows[0])
  }

  /** `fetch_db_stats` as a whole: the query's own error, or the outcome of
      processing its rows. */
  function FetchDbStats(reply: Result<seq<seq<Option<real>>>, Fault>, era: Era): (r: Result<seq<(string, string)>, Fault>)
    ensures r.Ok? <==>
      (reply.Ok? && |reply.value| > 0 &&
       forall i :: 0 <= i < Min(|DbStatsFields(era)|, |reply.value[0]|) ==> reply.value[0][i].Some?)
    ensures r.Err? ==> r.error == (if reply.Err? then reply.error else if |reply.value| == 0 then IndexError else TypeError)
    ensures r.Ok? ==> |r.value| == Min(|DbStatsFields(era)|, |reply.value[0]|)
    ensures r.Ok? ==> forall i :: 0 <= i < |r.value| ==>
      r.value[i].0 == DbStatsFields(era)[i].metric && ParseInt(r.value[i].1) == Ok(Round(reply.value[0][i].value))
  {
    var rows :- reply;
    DbStats(rows, era)
  }

  /** A complete first row gives one counter per field, named in field order,
      with its value rounded: 9 counters before 9.2 and 11 from 9.2 on. */
  lemma DbStatsComplete(rows: seq<seq<Option<real>>>, era: Era)
    requires |rows| > 0 && |rows[0]| == |DbStatsFields(era)|
    requires forall i :: 0 <= i < |rows[0]| ==> rows[0][i].Some?
    ensures DbStats(rows, era).Ok?
    ensures |DbStats(rows, era).value| == (if era == Legacy then 9 else 11)
    ensures forall i :: 0 <= i < |rows[0]| ==>
      && DbStats(rows, era).value[i].0 == DbStatsFields(era)[i].metric
      && ParseInt(DbStats(rows, era).value[i].1) == Ok(Round(rows[0][i].value))
  {
  }
}

=== FILE: collector.dfy ===
/** One database in one cycle: connect, run the accessors in their fixed
    order with the version fetched once, and either queue every point or,
    on the first exception, none; the cursor and connection are closed
    whenever the connect succeeded. */
module Collector {
  import opened Outcomes
  import opened Version
  import opened Accessors
  import opened Metrics
  import opened Sweeps

  /** A reply that depends on which variant of a query was sent. */
  datatype ByEra<T> = ByEra(legacy: T, modern: T) {
    function At(e: Era): T
    {
      if e == Legacy then legacy else modern
    }
  }

  /** What one database answers, or the error it raises, for each query the
      collector can send it. `banner` is the text of `version()`; the
      `split_part` of the version query is applied by `FetchVersion`. */
  datatype Server = Server(
    banner: Result<string, Fault>,
    indexHits: Result<Option<real>, Fault>,
    cacheHits: Result<Option<real>, Fault>,
    states: ByEra<Result<seq<StateRow>, Fault>>,
    waiting: Result<int, Fault>,
    times: ByEra<Result<seq<real>, Fault>>,
    scans: Result<ScanSums, Fault>,
    dbStats: ByEra<Result<seq<seq<Option<real>>>, Fault>>)

  /** The queries, with the variant each version-dependent one was sent in. */
  datatype Query =
    | VersionQuery
    | IndexHitsQuery
    | CacheHitsQuery
    | StatesQuery(era: Era)
    | WaitingQuery
    | TimesQuery(era: Era)
    | ScansQuery
    | DbStatsQuery(era: Era, database: string)

  /** The exception that ended a source's accessors, and the query whose
      accessor raised it. */
  datatype Abort = Abort(fault: Fault, at: Query)

  /** What each accessor returns, or raises, on this server: the reply of
      its query after the accessor's own processing. Version-dependent
      accessors have an outcome per variant. */
  datatype Answers = Answers(
    version: Result<Version, Fault>,
    indexHits: Result<real, Fault>,
    cacheHits: Result<real, Fault>,
    states: ByEra<Result<seq<(string, int)>, Fault>>,
    waiting: Result<int, Fault>,
    times: ByEra<Result<seq<(string, real)>, Fault>>,
    scans: Result<seq<(string, string)>, Fault>,
    dbStats: ByEra<Result<seq<(string, string)>, Fault>>)

  /** Every accessor applied to the server's replies. */
  function Answer(srv: Server): Answers
  {
    Answers(
      FetchVersion(srv.banner),
      FetchRatio(srv.indexHits),
      FetchRatio(srv.cacheHits),
      ByEra(FetchStates(srv.states.legacy), FetchStates(srv.states.modern)),
      srv.waiting,
      ByEra(FetchTimes(srv.times.legacy), FetchTimes(srv.times.modern)),
      FetchScans(srv.scans),
      ByEra(FetchDbStats(srv.dbStats.legacy, Legacy), FetchDbStats(srv.dbStats.modern, Modern)))
  }

  /** Tags an accessor's exception with the query it came from. */
  function Stage<T>(q: Query, r: Result<T, Fault>): (s: Result<T, Abort>)
    ensures r.Ok? ==> s == Ok(r.value)
    ensures r.Err? ==> s == Err(Abort(r.error, q))
  {
    match r
    case Ok(x) => Ok(x)
    case Err(f) => Err(Abort(f, q))
  }

  /** The accessor calls of the `try` block, in source order, with the
      version fetched once and passed to the gated accessors; the first
      exception abandons the rest. `fetch_index_sizes` sends nothing and its
      result is unused, so it does not appear. */
  function Chain(ans: Answers, database: string): (r: Result<Readings, Abort>)
  {
    var v :- Stage(VersionQuery, ans.version);
    var era := QueryEra(v);
    var statsEra := StatsEra(v);
    var indexHits :- Stage(IndexHitsQuery, ans.indexHits);
    var cacheHits :- Stage(CacheHitsQuery, ans.cacheHits);
    var states :- Stage(StatesQuery(era), ans.states.At(era));
    var waiting :- Stage(WaitingQuery, ans.waiting);
    var times :- Stage(TimesQuery(era), ans.times.At(era));
    var scans :- Stage(ScansQuery, ans.scans);
    var stats :- Stage(DbStatsQuery(statsEra, database), ans.dbStats.At(statsEra));
    Ok(Readings(v, indexHits, cacheHits, states, waiting, times, scans, stats))
  }

  /** The `try` block for one database on one server. */
  function Fetch(srv: Server, database: string): Result<Readings, Abort>
  {
    Chain(Answer(srv), database)
  }

  /** The queries after the version query, for a server of version `v`. */
  function Plan(v: Version, database: string): (qs: seq<Query>)
  {
    [ IndexHitsQuery, CacheHitsQuery, StatesQuery(QueryEra(v)), WaitingQuery,
      TimesQuery(QueryEra(v)), ScansQuery, DbStatsQuery(StatsEra(v), database) ]
  }

  /** Every version-dependent query of a plan is sent in the variant the
      version's gate selects: one version, one consistent set of queries. */
  lemma PlanVariantsAgree(v: Version, database: string)
    ensures forall q :: q in Plan(v, database) && (q.StatesQuery? || q.TimesQuery? || q.DbStatsQuery?) ==>
      q.era == (if LexLess(v, Release92) then Legacy else Modern)
  {
    GatesAgree(v);
  }

  /** Version gating on the two sides of (9, 2): a 9.1 server is asked the
      query that classifies `current_query`, a 9.2 server the `state`
      column, and only the latter gets the extended statistics columns. */
  lemma GatingExamples(database: string)
    ensures Plan([9, 1], database)[2] == StatesQuery(Legacy)
    ensures Plan([9, 2], database)[2] == StatesQuery(Modern)
    ensures Plan([9, 1], database)[6] == DbStatsQuery(Legacy, database)
    ensures Plan([9, 2], database)[6] == DbStatsQuery(Modern, database)
  {
    GatesAgree([9, 1]);
    GatesAgree([9, 2]);
  }

  /** Whether the accessor behind query `q` raises. */
  predicate Raises(ans: Answers, q: Query)
  {
    match q
    case VersionQuery => ans.version.Err?
    case IndexHitsQuery => ans.indexHits.Err?
    case CacheHitsQuery => ans.cacheHits.Err?
    case StatesQuery(e) => ans.states.At(e).Err?
    case WaitingQuery => ans.waiting.Err?
    case TimesQuery(e) => ans.times.At(e).Err?
    case ScansQuery => ans.scans.Err?
    case DbStatsQuery(e, _) => ans.dbStats.At(e).Err?
  }

  /** The queries scheduled: the version query, then the plan for the
      version it reports. */
  function Schedule(ans: Answers, database: string): seq<Query>
  {
    match ans.version
    case Ok(v) => [VersionQuery] + Plan(v, database)
    case Err(_) => [VersionQuery]
  }

  /** Runs queries in order up to and including the first whose accessor
      raises. */
  function UntilRaise(ans: Answers, qs: seq<Query>): (ran: seq<Query>)
    ensures |ran| <= |qs| && ran == qs[..|ran|]
    ensures forall i :: 0 <= i < |ran| - 1 ==> !Raises(ans, ran[i])
    ensures |ran| < |qs| ==> |ran| > 0 && Raises(ans, ran[|ran| - 1])
    ensures |qs| > 0 ==> |ran| > 0
  {
    if |qs| == 0 then []
    else if Raises(ans, qs[0]) then [qs[0]]
    else [qs[0]] + UntilRaise(ans, qs[1..])
  }

  /** The queries actually sent during one cycle. */
  function Executed(ans: Answers, database: string): seq<Query>
  {
    UntilRaise(ans, Schedule(ans, database))
  }

  /** The trace of the `try` block: on success every scheduled query ran and
      none raised; on failure the queries ran up to the one named in the
      abort, whose accessor raised, and nothing after it. */
  lemma ChainTrace(ans: Answers, database: string)
    ensures Chain(ans, database).Ok? ==>
      Executed(ans, database) == [VersionQuery] + Plan(Chain(ans, database).value.version, database)
    ensures Chain(ans, database).Ok? ==> forall q :: q in Executed(ans, database) ==> !Raises(ans, q)
    ensures Chain(ans, database).Err? ==>
      var ran := Executed(ans, database);
      |ran| > 0 && ran[|ran| - 1] == Chain(ans, database).error.at && Raises(ans, ran[|ran| - 1])
  {
    var r := Chain(ans, database);
    var qs := Schedule(ans, database);
    if ans.version.Err? {
      assert qs == [VersionQuery];
      assert Executed(ans, database) == [VersionQuery];
    } else {
      var v := ans.version.value;
      TraceOfPlan(ans, database, v);
      if r.Ok? {
        AllQuietRunsAll(ans, qs);
        assert qs == [VersionQuery] + Plan(v, database);
      } else {
        var k :| 0 < k < |qs| && FirstRaise(ans, qs, k) && qs[k] == r.error.at;
        FirstRaiseStops(ans, qs, k);
      }
    }
  }

  /** The `try` block succeeds exactly when no scheduled accessor raises. */
  lemma ChainSucceedsIff(ans: Answers, database: string)
    ensures Chain(ans, database).Ok? <==>
      forall i :: 0 <= i < |Schedule(ans, database)| ==> !Raises(ans, Schedule(ans, database)[i])
  {
    var qs := Schedule(ans, database);
    ChainTrace(ans, database);
    if Chain(ans, database).Err? {
      var ran := Executed(ans, database);
      assert ran[|ran| - 1] == qs[|ran| - 1];
    } else {
      assert Executed(ans, database) == qs;
      forall i | 0 <= i < |qs| ensures !Raises(ans, qs[i]) {
        assert qs[i] in Executed(ans, database);
      }
    }
  }

  /** A successful fetch holds what every accessor returned, and reads each
      gated accessor in the variant the version it fetched selects. */
  lemma ChainReadings(ans: Answers, database: string)
    requires Chain(ans, database).Ok?
    ensures ans.version == Ok(Chain(ans, database).value.version)
    ensures var d := Chain(ans, database).value;
      && ans.indexHits == Ok(d.indexHits)
      && ans.cacheHits == Ok(d.cacheHits)
      && ans.waiting == Ok(d.waiting)
      && ans.scans == Ok(d.scans)
    ensures var d := Chain(ans, database).value;
      && ans.states.At(QueryEra(d.version)) == Ok(d.states)
      && ans.times.At(QueryEra(d.version)) == Ok(d.times)
      && ans.dbStats.At(StatsEra(d.version)) == Ok(d.dbStats)
  {
  }

  /** The hit ratios of a successful fetch are the cells the ratio queries
      returned, so neither was NULL. */
  lemma RatiosRead(srv: Server, database: string)
    requires Fetch(srv, database).Ok?
    ensures srv.indexHits == Ok(Some(Fetch(srv, database).value.indexHits))
    ensures srv.cacheHits == Ok(Some(Fetch(srv, database).value.cacheHits))
  {
    ChainReadings(Answer(srv), database);
  }

  /** A NULL index-hit ratio on a server whose version parses aborts the
      fetch with `TypeError` at the index-hit query. */
  lemma NullRatioAborts(srv: Server, database: string)
    requires FetchVersion(srv.banner).Ok? && srv.indexHits == Ok(None)
    ensures Fetch(srv, database) == Err(Abort(TypeError, IndexHitsQuery))
  {
  }

  /** The full schedule once the version is known. */
  lemma ScheduleOfVersion(ans: Answers, database: string, v: Version)
    requires ans.version == Ok(v)
    ensures Schedule(ans, database) ==
      [ VersionQuery, IndexHitsQuery, CacheHitsQuery, StatesQuery(QueryEra(v)), WaitingQuery,
        TimesQuery(QueryEra(v)), ScansQuery, DbStatsQuery(StatsEra(v), database) ]
  {
  }

  /** Once the version is known, the fetch fails exactly at the first
      scheduled query whose accessor raises. */
  lemma TraceOfPlan(ans: Answers, database: string, v: Version)
    requires ans.version == Ok(v)
    ensures Chain(ans, database).Ok? ==> Chain(ans, database).value.version == v
    ensures Chain(ans, database).Ok? ==> forall i :: 0 <= i < |Schedule(ans, database)| ==> !Raises(ans, Schedule(ans, database)[i])
    ensures Chain(ans, database).Err? ==>
      exists k :: 0 < k < |Schedule(ans, database)| && FirstRaise(ans, Schedule(ans, database), k)
        && Schedule(ans, database)[k] == Chain(ans, database).error.at
  {
    var qs := Schedule(ans, database);
    ScheduleOfVersion(ans, database, v);
    var k := 1;
    while k < 8 && !Raises(ans, qs[k])
      invariant 1 <= k <= 8
      invariant forall j :: 0 <= j < k ==> !Raises(ans, qs[j])
    {
      k := k + 1;
    }
    if k < 8 {
      FailsAt(ans, database, v, k);
    } else {
      PassesAll(ans, database, v);
    }
  }

  /** The fetch stops at query k when that is the first one to raise. */
  lemma FailsAt(ans: Answers, database: string, v: Version, k: nat)
    requires ans.version == Ok(v)
    requires 0 < k < 8 && FirstRaise(ans, Schedule(ans, database), k)
    ensures Chain(ans, database).Err? && Chain(ans, database).error.at == Schedule(ans, database)[k]
  {
    var qs := Schedule(ans, database);
    ScheduleOfVersion(ans, database, v);
    if k == 1 {
    } else if k == 2 {
      assert !Raises(ans, qs[1]);
    } else if k == 3 {
      assert !Raises(ans, qs[1]) && !Raises(ans, qs[2]);
    } else if k == 4 {
      assert !Raises(ans, qs[1]) && !Raises(ans, qs[2]) && !Raises(ans, qs[3]);
    } else if k == 5 {
      assert !Raises(ans, qs[1]) && !Raises(ans, qs[2]) && !Raises(ans, qs[3]) && !Raises(ans, qs[4]);
    } else if k == 6 {
      assert !Raises(ans, qs[1]) && !Raises(ans, qs[2]) && !Raises(ans, qs[3]) && !Raises(ans, qs[4]);
      assert !Raises(ans, qs[5]);
    } else {
      assert !Raises(ans, qs[1]) && !Raises(ans, qs[2]) && !Raises(ans, qs[3]) && !Raises(ans, qs[4]);
      assert !Raises(ans, qs[5]) && !Raises(ans, qs[6]);
    }
  }

  /** When no scheduled query raises, the fetch succeeds with the version. */
  lemma PassesAll(ans: Answers, database: string, v: Version)
    requires ans.version == Ok(v)
    requires forall j :: 0 <= j < |Schedule(ans, database)| ==> !Raises(ans, Schedule(ans, database)[j])
    ensures Chain(ans, database).Ok? && Chain(ans, database).value.version == v
  {
    var qs := Schedule(ans, database);
    ScheduleOfVersion(ans, database, v);
    assert !Raises(ans, qs[1]) && !Raises(ans, qs[2]) && !Raises(ans, qs[3]) && !Raises(ans, qs[4]);
    assert !Raises(ans, qs[5]) && !Raises(ans, qs[6]) && !Raises(ans, qs[7]);
  }

  /** Query k raises and none before it does. */
  ghost predicate FirstRaise(ans: Answers, qs: seq<Query>, k: nat)
  {
    k < |qs| && Raises(ans, qs[k]) && forall j :: 0 <= j < k ==> !Raises(ans, qs[j])
  }

  /** When no query raises, all of them run. */
  lemma {:induction false} AllQuietRunsAll(ans: Answers, qs: seq<Query>)
    requires forall i :: 0 <= i < |qs| ==> !Raises(ans, qs[i])
    ensures UntilRaise(ans, qs) == qs
  {
    if |qs| > 0 {
      AllQuietRunsAll(ans, qs[1..]);
    }
  }

  /** When query k is the first to raise, exactly queries 0..k run. */
  lemma {:induction false} FirstRaiseStops(ans: Answers, qs: seq<Query>, k: nat)
    requires k < |qs| && Raises(ans, qs[k])
    requires forall j :: 0 <= j < k ==> !Raises(ans, qs[j])
    ensures UntilRaise(ans, qs) == qs[..k + 1]
  {
    if k > 0 {
      assert !Raises(ans, qs[0]);
      forall j | 0 <= j < k - 1
        ensures !Raises(ans, qs[1..][j])
      {
        assert qs[1..][j] == qs[j + 1];
      }
      FirstRaiseStops(ans, qs[1..], k - 1);
      assert UntilRaise(ans, qs) == [qs[0]] + UntilRaise(ans, qs[1..]);
      assert qs[..k + 1] == [qs[0]] + qs[1..][..k];
    }
  }

  // ---------------------------------------------------------------------
  // One source
  // ---------------------------------------------------------------------

  /** A configured database: its `source` tag and database name. Host, port
      and credentials only matter to the connect, whose outcome is given. */
  datatype Target = Target(source: string, database: string)

  /** The outcome of `psycopg2.connect`: an open connection to a server, an
      `OperationalError` (caught: the source is skipped), or any other
      exception, which is not caught and ends `publish_forever`. */
  datatype Link = Opened(server: Server) | Refused | Unexpected

  /** One configured database together with how connecting to it went. */
  datatype Attempt = Attempt(target: Target, link: Link)

  /** What the collector does, in order, as seen by an observer of the
      connection: the side channel the source prints to, plus resource use. */
  datatype Action =
    | ConnectFailed
    | ConnectEscaped
    | Connected
    | Ran(q: Query)
    | Failed(abort: Abort)
    | CursorClosed
    | ConnClosed

  datatype Event = Event(source: string, action: Action)

  /** The points one source queued, its events, and whether an exception
      escaped the cycle. */
  type SourceRun = Run<Point, Event>

  function RanEvents(source: string, qs: seq<Query>): (es: seq<Event>)
    ensures |es| == |qs|
    ensures forall i :: 0 <= i < |qs| ==> es[i] == Event(source, Ran(qs[i]))
  {
    if |qs| == 0 then [] else [Event(source, Ran(qs[0]))] + RanEvents(source, qs[1..])
  }

  /** The part of the loop body after a successful connect: the `try`
      block, the logged exception if one was raised, then both closes. */
  function Visit(src: string, ans: Answers, database: string): (run: SourceRun)
    ensures !run.escaped
    ensures Chain(ans, database).Err? ==> run.points == []
    ensures Chain(ans, database).Ok? ==> run.points == Points(src, Chain(ans, database).value)
    ensures |run.log| >= 3 && run.log[0] == Event(src, Connected)
    ensures run.log[|run.log| - 2..] == [Event(src, CursorClosed), Event(src, ConnClosed)]
  {
    var ran := RanEvents(src, Executed(ans, database));
    var closes := [Event(src, CursorClosed), Event(src, ConnClosed)];
    match Chain(ans, database)
    case Ok(d) => Run(Points(src, d), [Event(src, Connected)] + ran + closes, false)
    case Err(abort) => Run([], [Event(src, Connected)] + ran + [Event(src, Failed(abort))] + closes, false)
  }

  /** The log of a failed visit names the exception right after the run of
      the query whose accessor raised it, and only then closes. */
  lemma VisitFailure(src: string, ans: Answers, database: string)
    requires Chain(ans, database).Err?
    ensures var log := Visit(src, ans, database).log;
      && |log| >= 4
      && log[|log| - 4] == Event(src, Ran(Chain(ans, database).error.at))
      && log[|log| - 3] == Event(src, Failed(Chain(ans, database).error))
      && Raises(ans, Chain(ans, database).error.at)
  {
    ChainTrace(ans, database);
    var ran := Executed(ans, database);
    var events := RanEvents(src, ran);
    var closes := [Event(src, CursorClosed), Event(src, ConnClosed)];
    var failed := [Event(src, Failed(Chain(ans, database).error))];
    var log := [Event(src, Connected)] + events + failed + closes;
    assert Visit(src, ans, database).log == log;
    assert log[|log| - 4] == events[|ran| - 1];
  }

  /** The body of the `for db in config['databases']` loop for one database. */
  function CollectSource(a: Attempt): (run: SourceRun)
    ensures run.escaped <==> a.link.Unexpected?
    ensures !a.link.Opened? ==> run.points == []
    ensures a.link.Refused? ==> run.log == [Event(a.target.source, ConnectFailed)]
    ensures a.link.Unexpected? ==> run.log == [Event(a.target.source, ConnectEscaped)]
    ensures a.link.Opened? ==> run == Visit(a.target.source, Answer(a.link.server), a.target.database)
  {
    var src := a.target.source;
    match a.link
    case Refused => Run([], [Event(src, ConnectFailed)], false)
    case Unexpected => Run([], [Event(src, ConnectEscaped)], true)
    case Opened(srv) => Visit(src, Answer(srv), a.target.database)
  }

  /** The number of events in a log with the given action. */
  function Count(log: seq<Event>, action: Action): nat
  {
    if |log| == 0 then 0
    else (if log[0].action == action then 1 else 0) + Count(log[1..], action)
  }

  lemma {:induction false} CountAppend(a: seq<Event>, b: seq<Event>, action: Action)
    ensures Count(a + b, action) == Count(a, action) + Count(b, action)
  {
    if |a| == 0 {
      assert a + b == b;
    } else {
      CountAppend(a[1..], b, action);
      assert (a + b)[1..] == a[1..] + b;
    }
  }

  lemma {:induction false} RanEventsCount(source: string, qs: seq<Query>, action: Action)
    requires !action.Ran?
    ensures Count(RanEvents(source, qs), action) == 0
  {
    if |qs| > 0 {
      RanEventsCount(source, qs[1..], action);
    }
  }

  /** Each of the resource actions occurs once in a log of the visit's
      shape: connect, queries, at most one logged exception, closes. */
  lemma VisitShapeCounts(src: string, qs: seq<Query>, failed: seq<Event>, action: Action)
    requires action == Connected || action == CursorClosed || action == ConnClosed
    requires |failed| <= 1 && forall i :: 0 <= i < |failed| ==> failed[i].action.Failed?
    ensures Count([Event(src, Connected)] + RanEvents(src, qs) + failed
                  + [Event(src, CursorClosed), Event(src, ConnClosed)], action) == 1
  {
    var ran := RanEvents(src, qs);
    var closes := [Event(src, CursorClosed), Event(src, ConnClosed)];
    CountAppend([Event(src, Connected)] + ran + failed, closes, action);
    CountAppend([Event(src, Connected)] + ran, failed, action);
    CountAppend([Event(src, Connected)], ran, action);
    RanEventsCount(src, qs, action);
    assert Count(failed, action) == 0;
    assert closes[1..][1..] == [];
  }

  /** Resources of one visit: exactly one connect, one cursor close and one
      connection close, whether or not an accessor raised. */
  lemma VisitResources(src: string, ans: Answers, database: string)
    ensures Count(Visit(src, ans, database).log, Connected) == 1
    ensures Count(Visit(src, ans, database).log, CursorClosed) == 1
    ensures Count(Visit(src, ans, database).log, ConnClosed) == 1
  {
    var qs := Executed(ans, database);
    var failed := if Chain(ans, database).Ok? then [] else [Event(src, Failed(Chain(ans, database).error))];
    assert Visit(src, ans, database).log == [Event(src, Connected)] + RanEvents(src, qs) + failed
      + [Event(src, CursorClosed), Event(src, ConnClosed)];
    VisitShapeCounts(src, qs, failed, Connected);
    VisitShapeCounts(src, qs, failed, CursorClosed);
    VisitShapeCounts(src, qs, failed, ConnClosed);
  }

  /** Resources of one source: a refused or escaped connect opens nothing and
      closes nothing; a successful connect is followed by exactly one cursor
      close and one connection close. */
  lemma SourceResources(a: Attempt)
    ensures Count(CollectSource(a).log, Connected) == (if a.link.Opened? then 1 else 0)
    ensures Count(CollectSource(a).log, CursorClosed) == (if a.link.Opened? then 1 else 0)
    ensures Count(CollectSource(a).log, ConnClosed) == (if a.link.Opened? then 1 else 0)
  {
    if a.link.Opened? {
      VisitResources(a.target.source, Answer(a.link.server), a.target.database);
    }
  }

  /** Every point a source queues carries that source's tag and the common
      prefix. */
  lemma SourcePointsTagged(a: Attempt)
    ensures forall p :: p in CollectSource(a).points ==>
      p.source == a.target.source && Prefix <= p.name
  {
    if a.link.Opened? {
      var ans := Answer(a.link.server);
      if Chain(ans, a.target.database).Ok? {
        PointsTaggedAndTyped(a.target.source, Chain(ans, a.target.database).value);
      }
    }
  }
}

=== FILE: cycle.dfy ===
/** The outer loop of `publish_forever`: one queue per cycle, every
    configured database visited in order, one submit at the end. A source
    that cannot be reached or whose accessors raise is skipped without
    disturbing the others; an exception other than `OperationalError` from
    the connect is not caught and ends the loop. */
module Cycle {
  import opened Metrics
  import opened Collector
  import opened Sweeps

  /** The number of events with a given action over the runs the sweep
      reaches: those up to and including the first escaping one. */
  function CountReached(runs: seq<SourceRun>, action: Action): nat
  {
    if |runs| == 0 then 0
    else if runs[0].escaped then Count(runs[0].log, action)
    else Count(runs[0].log, action) + CountReached(runs[1..], action)
  }

  /** The log of a sweep holds exactly the events of the runs it reached. */
  lemma {:induction false} SweepCount(runs: seq<SourceRun>, action: Action)
    ensures Count(SweepRuns(runs).log, action) == CountReached(runs, action)
  {
    if |runs| > 0 && !runs[0].escaped {
      SweepCount(runs[1..], action);
      CountAppend(runs[0].log, SweepRuns(runs[1..]).log, action);
    }
  }

  // ---------------------------------------------------------------------
  // Sources
  // ---------------------------------------------------------------------

  /** The run of every configured database, in order. */
  function Runs(attempts: seq<Attempt>): (runs: seq<SourceRun>)
    ensures |runs| == |attempts|
  {
    if |attempts| == 0 then [] else [CollectSource(attempts[0])] + Runs(attempts[1..])
  }

  lemma {:induction false} RunsAt(attempts: seq<Attempt>, i: nat)
    requires i < |attempts|
    ensures Runs(attempts)[i] == CollectSource(attempts[i])
  {
    if i > 0 {
      RunsAt(attempts[1..], i - 1);
    }
  }

  lemma {:induction false} RunsAppend(a: seq<Attempt>, b: seq<Attempt>)
    ensures Runs(a + b) == Runs(a) + Runs(b)
  {
    if |a| == 0 {
      assert a + b == b;
    } else {
      var head := CollectSource(a[0]);
      assert Runs(a + b) == [head] + Runs(a[1..] + b) by {
        assert (a + b)[0] == a[0] && (a + b)[1..] == a[1..] + b;
      }
      RunsAppend(a[1..], b);
    }
  }

  /** No connect among these attempts raises an uncaught exception. */
  predicate Steady(attempts: seq<Attempt>)
  {
    forall i :: 0 <= i < |attempts| ==> !attempts[i].link.Unexpected?
  }

  /** A source whose points reach the queue: connected, and no accessor raised. */
  predicate Contributes(a: Attempt)
  {
    a.link.Opened? && Fetch(a.link.server, a.target.database).Ok?
  }

  /** Only a connect that raises something other than `OperationalError`
      lets an exception escape a source's run. */
  lemma SteadyIsCalm(attempts: seq<Attempt>)
    ensures Steady(attempts) <==> Calm(Runs(attempts))
  {
    forall i | 0 <= i < |attempts|
      ensures Runs(attempts)[i].escaped <==> attempts[i].link.Unexpected?
    {
      RunsAt(attempts, i);
    }
  }

  /** The loop body over the configured databases of one cycle. */
  function SweepSources(attempts: seq<Attempt>): (s: Sweep<Point, Event>)
    ensures s.escaped <==> !Steady(attempts)
  {
    SteadyIsCalm(attempts);
    SweepEscapes(Runs(attempts));
    SweepRuns(Runs(attempts))
  }

  /** The sweep of a single source is that source's run. */
  lemma SweepOne(a: Attempt)
    ensures SweepSources([a]).batch == CollectSource(a).points
    ensures SweepSources([a]).log == CollectSource(a).log
    ensures SweepSources([a]).escaped <==> a.link.Unexpected?
  {
    var run := CollectSource(a);
    assert Runs([a]) == [run];
    SweepSingle(run);
  }

  /** Runs of a list with one source singled out. */
  lemma RunsAround(pre: seq<Attempt>, a: Attempt, post: seq<Attempt>)
    ensures Runs(pre + [a] + post) == Runs(pre) + [CollectSource(a)] + Runs(post)
  {
    RunsAppend(pre + [a], post);
    RunsAppend(pre, [a]);
    assert Runs([a]) == [CollectSource(a)];
  }

  /** Isolation: a source's points go to the queue between those of the
      sources before it and those of the sources after it, whatever the
      others did, provided no earlier connect raised an uncaught exception
      and its own did not; the sources after a failing one are still
      visited. */
  lemma SourcesIsolated(pre: seq<Attempt>, a: Attempt, post: seq<Attempt>)
    requires Steady(pre) && !a.link.Unexpected?
    ensures SweepSources(pre + [a] + post).batch ==
      SweepSources(pre).batch + (CollectSource(a).points + SweepSources(post).batch)
    ensures SweepSources(pre + [a] + post).log ==
      SweepSources(pre).log + (CollectSource(a).log + SweepSources(post).log)
  {
    RunsAround(pre, a, post);
    assert Calm(Runs(pre)) by {
      SteadyIsCalm(pre);
    }
    SourceIsolated(Runs(pre), CollectSource(a), Runs(post));
  }

  /** A refused source, or one whose accessors raise, adds nothing: the batch
      is exactly the batch of the cycle without it. */
  lemma FailingSourceContributesNothing(pre: seq<Attempt>, a: Attempt, post: seq<Attempt>)
    requires Steady(pre) && !a.link.Unexpected? && !Contributes(a)
    ensures SweepSources(pre + [a] + post).batch == SweepSources(pre + post).batch
  {
    var run := CollectSource(a);
    RunsAround(pre, a, post);
    RunsAppend(pre, post);
    assert Calm(Runs(pre)) by {
      SteadyIsCalm(pre);
    }
    assert run.points == [];
    EmptyRunContributesNothing(Runs(pre), run, Runs(post));
  }

  /** What a source adds to the batch, stated without the sweep: the full
      point list of its readings when it contributes, nothing otherwise. */
  function Contribution(a: Attempt): seq<Point>
  {
    if Contributes(a) then Points(a.target.source, Fetch(a.link.server, a.target.database).value) else []
  }

  /** The contributions of the configured databases, in config order. */
  function Contributed(attempts: seq<Attempt>): seq<Point>
  {
    if |attempts| == 0 then [] else Contribution(attempts[0]) + Contributed(attempts[1..])
  }

  /** The points of a source's run are its contribution. */
  lemma SourceContribution(a: Attempt)
    ensures CollectSource(a).points == Contribution(a)
  {
    if a.link.Opened? {
      var ans := Answer(a.link.server);
      assert CollectSource(a) == Visit(a.target.source, ans, a.target.database);
    }
  }

  /** The batch of a cycle in which no connect escapes is the concatenation,
      in config order, of the full point lists of the sources that connected
      and whose accessors all succeeded. */
  lemma {:induction false} BatchIsContributions(attempts: seq<Attempt>)
    requires Steady(attempts)
    ensures SweepSources(attempts).batch == Contributed(attempts)
  {
    if |attempts| > 0 {
      var a, rest := attempts[0], attempts[1..];
      assert attempts == [] + [a] + rest;
      assert Steady(rest) by {
        forall i | 0 <= i < |rest| ensures !rest[i].link.Unexpected? {
          assert rest[i] == attempts[i + 1];
        }
      }
      assert SweepSources(attempts).batch == SweepSources([]).batch + (CollectSource(a).points + SweepSources(rest).batch) by {
        SourcesIsolated([], a, rest);
      }
      assert SweepSources([]).batch == [];
      BatchIsContributions(rest);
      SourceContribution(a);
    }
  }

  /** The number of sources the sweep connected to: those opened before the
      first escaping connect. */
  function OpenedCount(attempts: seq<Attempt>): nat
  {
    if |attempts| == 0 || attempts[0].link.Unexpected? then 0
    else (if attempts[0].link.Opened? then 1 else 0) + OpenedCount(attempts[1..])
  }

  lemma {:induction false} ReachedResources(attempts: seq<Attempt>, action: Action)
    requires action == Connected || action == CursorClosed || action == ConnClosed
    ensures CountReached(Runs(attempts), action) == OpenedCount(attempts)
  {
    if |attempts| > 0 {
      var run := CollectSource(attempts[0]);
      SourceResources(attempts[0]);
      assert Runs(attempts)[0] == run;
      assert Runs(attempts)[1..] == Runs(attempts[1..]);
      if !run.escaped {
        ReachedResources(attempts[1..], action);
      }
    }
  }

  /** Resources over a whole sweep: every connection that was opened has its
      cursor closed and is closed itself, once each, and nothing else is. */
  lemma SweepResources(attempts: seq<Attempt>)
    ensures Count(SweepSources(attempts).log, Connected) == OpenedCount(attempts)
    ensures Count(SweepSources(attempts).log, CursorClosed) == OpenedCount(attempts)
    ensures Count(SweepSources(attempts).log, ConnClosed) == OpenedCount(attempts)
  {
    var runs := Runs(attempts);
    SweepCount(runs, Connected);
    SweepCount(runs, CursorClosed);
    SweepCount(runs, ConnClosed);
    ReachedResources(attempts, Connected);
    ReachedResources(attempts, CursorClosed);
    ReachedResources(attempts, ConnClosed);
  }

  /** Every queued point carries the tag of a source that connected and
      whose accessors all succeeded. */
  lemma BatchFromContributors(attempts: seq<Attempt>)
    ensures forall p :: p in SweepSources(attempts).batch ==>
      exists j :: 0 <= j < |attempts| && Contributes(attempts[j]) && p.source == attempts[j].target.source
  {
    var runs := Runs(attempts);
    BatchFromRuns(runs);
    forall p | p in SweepSources(attempts).batch
      ensures exists j :: 0 <= j < |attempts| && Contributes(attempts[j]) && p.source == attempts[j].target.source
    {
      var j :| 0 <= j < |runs| && p in runs[j].points;
      RunsAt(attempts, j);
      SourcePointsTagged(attempts[j]);
      assert Contributes(attempts[j]);
    }
  }

  /** One cycle: either the loop over the sources finished and the queue was
      submitted (`delivered` is false when `q.submit()` raised, which is
      printed and otherwise ignored), or an exception escaped and the process
      ends without submitting. */
  datatype Cycle = Submitted(batch: seq<Point>, delivered: bool, log: seq<Event>) | Aborted(log: seq<Event>)

  /** One pass of the `while True` body; `submitOk` is whether the submit
      to the metrics service went through. */
  function RunCycle(attempts: seq<Attempt>, submitOk: bool): (c: Cycle)
    ensures c.Submitted? <==> Steady(attempts)
    ensures c.Submitted? ==> c.batch == SweepSources(attempts).batch && c.delivered == submitOk
    ensures c.log == SweepSources(attempts).log
  {
    var s := SweepSources(attempts);
    if s.escaped then Aborted(s.log) else Submitted(s.batch, submitOk, s.log)
  }

  /** A failed submit is swallowed: the cycle still completes with the same
      batch it would have delivered. */
  lemma SubmitFailureSwallowed(attempts: seq<Attempt>)
    requires Steady(attempts)
    ensures RunCycle(attempts, false).Submitted?
    ensures RunCycle(attempts, false).batch == RunCycle(attempts, true).batch
    ensures RunCycle(attempts, false).log == RunCycle(attempts, true).log
  {
  }

  /** What the world looks like during one cycle: how each connect goes and
      whether the submit succeeds. */
  datatype Round = Round(attempts: seq<Attempt>, submitOk: bool)

  /** The cycle each round would produce if the loop reached it. */
  function CyclesOf(rounds: seq<Round>): (cs: seq<Cycle>)
    ensures |cs| == |rounds|
  {
    if |rounds| == 0 then [] else [RunCycle(rounds[0].attempts, rounds[0].submitOk)] + CyclesOf(rounds[1..])
  }

  lemma {:induction false} CyclesOfAt(rounds: seq<Round>, i: nat)
    requires i < |rounds|
    ensures CyclesOf(rounds)[i] == RunCycle(rounds[i].attempts, rounds[i].submitOk)
  {
    if i > 0 {
      CyclesOfAt(rounds[1..], i - 1);
    }
  }

  /** The loop stops after the first aborted cycle. */
  function UntilAborted(cs: seq<Cycle>): (out: seq<Cycle>)
    ensures |out| <= |cs| && out == cs[..|out|]
    ensures forall i :: 0 <= i < |out| - 1 ==> out[i].Submitted?
    ensures |out| < |cs| ==> |out| > 0 && out[|out| - 1].Aborted?
  {
    if |cs| == 0 then []
    else if cs[0].Aborted? then [cs[0]]
    else [cs[0]] + UntilAborted(cs[1..])
  }

  /** The `while True` loop over a finite run of rounds: a new queue and
      one submit per cycle, ending early after a cycle in which an exception
      escaped. */
  function RunCycles(rounds: seq<Round>): (cs: seq<Cycle>)
  {
    UntilAborted(CyclesOf(rounds))
  }

  /** Each cycle starts from a new queue: its batch holds exactly the points
      of that cycle's sweep, whatever earlier cycles queued or delivered. */
  lemma FreshQueueEachCycle(rounds: seq<Round>, i: nat)
    requires i < |RunCycles(rounds)| && RunCycles(rounds)[i].Submitted?
    ensures RunCycles(rounds)[i].batch == SweepSources(rounds[i].attempts).batch
    ensures RunCycles(rounds)[i].delivered == rounds[i].submitOk
  {
    CyclesOfAt(rounds, i);
  }

  /** Only an escaping connect ends the loop: as long as none occurs, every
      round gets its cycle, whether or not the submits succeed. */
  lemma LoopRunsUntilEscape(rounds: seq<Round>, i: nat)
    requires i + 1 < |rounds|
    requires forall j :: 0 <= j <= i ==> Steady(rounds[j].attempts)
    ensures |RunCycles(rounds)| > i + 1
  {
    var cs := RunCycles(rounds);
    if |cs| <= i + 1 {
      var last := |cs| - 1;
      CyclesOfAt(rounds, last);
      assert false;
    }
  }
}

=== FILE: metrics.dfy ===
/** The points one database contributes to a cycle's queue: the fixed order
    of `q.add` calls in `publish_forever`, the `postgres.pg_stat.` names,
    gauge or counter typing, and the `source` tag. */
module Metrics {
  import opened Version

  /** A point is a gauge unless it is added with `type='counter'`. */
  datatype Kind = Gauge | Counter

  /** What is handed to `q.add` as the value: a float (ratios, run times),
      an integer (backend counts) or the text `str()` produced (scans and
      database statistics). */
  datatype Value = Num(x: real) | Whole(n: int) | Str(s: string)

  /** One queued point: `q.add(name, value, type=kind, source=source)`. */
  datatype Point = Point(name: string, value: Value, kind: Kind, source: string)

  const Prefix: string := "postgres.pg_stat."

  /** Everything the accessors returned for one database, already
      post-processed. */
  datatype Readings = Readings(
    version: Version,
    indexHits: real,
    cacheHits: real,
    states: seq<(string, int)>,
    waiting: int,
    times: seq<(string, real)>,
    scans: seq<(string, string)>,
    dbStats: seq<(string, string)>)

  /** The points of a loop `for metric, v in pairs: q.add(Prefix + stem + metric, v, ...)`. */
  function Emit(source: string, kind: Kind, stem: string, pairs: seq<(string, Value)>): (ps: seq<Point>)
    ensures |ps| == |pairs|
    ensures forall i :: 0 <= i < |pairs| ==>
      ps[i] == Point(Prefix + stem + pairs[i].0, pairs[i].1, kind, source)
  {
    if |pairs| == 0 then []
    else
      [Point(Prefix + stem + pairs[0].0, pairs[0].1, kind, source)] + Emit(source, kind, stem, pairs[1..])
  }

  function Counts(pairs: seq<(string, int)>): (r: seq<(string, Value)>)
    ensures |r| == |pairs|
    ensures forall i :: 0 <= i < |pairs| ==> r[i] == (pairs[i].0, Whole(pairs[i].1))
  {
    if |pairs| == 0 then [] else [(pairs[0].0, Whole(pairs[0].1))] + Counts(pairs[1..])
  }

  function Nums(pairs: seq<(string, real)>): (r: seq<(string, Value)>)
    ensures |r| == |pairs|
    ensures forall i :: 0 <= i < |pairs| ==> r[i] == (pairs[i].0, Num(pairs[i].1))
  {
    if |pairs| == 0 then [] else [(pairs[0].0, Num(pairs[0].1))] + Nums(pairs[1..])
  }

  function Texts(pairs: seq<(string, string)>): (r: seq<(string, Value)>)
    ensures |r| == |pairs|
    ensures forall i :: 0 <= i < |pairs| ==> r[i] == (pairs[i].0, Str(pairs[i].1))
  {
    if |pairs| == 0 then [] else [(pairs[0].0, Str(pairs[0].1))] + Texts(pairs[1..])
  }

  /** Where the time metrics start: after the two ratios, the states and
      the waiting count. */
  function TimesStart(d: Readings): nat
  {
    3 + |d.states|
  }

  /** Where the counters start: after the time metrics. */
  function CountersStart(d: Readings): nat
  {
    3 + |d.states| + |d.times|
  }

  /** The activity points: both hit ratios, one point per backend state,
      then the waiting count. */
  function ActivityPoints(source: string, d: Readings): (ps: seq<Point>)
    ensures |ps| == 3 + |d.states|
    ensures ps[0] == Point(Prefix + "index_hits", Num(d.indexHits), Gauge, source)
    ensures ps[1] == Point(Prefix + "cache_hits", Num(d.cacheHits), Gauge, source)
    ensures forall k :: 0 <= k < |d.states| ==>
      ps[2 + k] == Point(Prefix + "backends_" + d.states[k].0, Whole(d.states[k].1), Gauge, source)
    ensures ps[2 + |d.states|] == Point(Prefix + "backends_waiting", Whole(d.waiting), Gauge, source)
  {
    var ratios := Emit(source, Gauge, "", [("index_hits", Num(d.indexHits)), ("cache_hits", Num(d.cacheHits))]);
    var states := Emit(source, Gauge, "backends_", Counts(d.states));
    var waiting := Emit(source, Gauge, "", [("backends_waiting", Whole(d.waiting))]);
    assert forall k :: 0 <= k < |d.states| ==> (ratios + states)[2 + k] == states[k];
    ratios + states + waiting
  }

  /** The gauges: the activity points followed by the time metrics. */
  function GaugePoints(source: string, d: Readings): (ps: seq<Point>)
    ensures |ps| == CountersStart(d)
    ensures ps[..TimesStart(d)] == ActivityPoints(source, d)
    ensures forall k :: 0 <= k < |d.times| ==>
      ps[TimesStart(d) + k] == Point(Prefix + d.times[k].0, Num(d.times[k].1), Gauge, source)
  {
    var activity := ActivityPoints(source, d);
    var times := Emit(source, Gauge, "", Nums(d.times));
    assert (activity + times)[..|activity|] == activity;
    activity + times
  }

  /** The counters: the two scan sums followed by the database statistics. */
  function CounterPoints(source: string, d: Readings): (ps: seq<Point>)
    ensures |ps| == |d.scans| + |d.dbStats|
    ensures forall k :: 0 <= k < |d.scans| ==>
      ps[k] == Point(Prefix + d.scans[k].0, Str(d.scans[k].1), Counter, source)
    ensures forall k :: 0 <= k < |d.dbStats| ==>
      ps[|d.scans| + k] == Point(Prefix + d.dbStats[k].0, Str(d.dbStats[k].1), Counter, source)
  {
    Emit(source, Counter, "", Texts(d.scans)) + Emit(source, Counter, "", Texts(d.dbStats))
  }

  /** All points of one database, in the order of the `q.add` calls: the
      gauges, then the counters. */
  function Points(source: string, d: Readings): (ps: seq<Point>)
    ensures |ps| == CountersStart(d) + |d.scans| + |d.dbStats|
  {
    GaugePoints(source, d) + CounterPoints(source, d)
  }

  lemma ActivityOrder(source: string, d: Readings, i: nat)
    requires i < TimesStart(d)
    ensures Points(source, d)[i] == ActivityPoints(source, d)[i]
  {
    var gauges := GaugePoints(source, d);
    assert gauges[..TimesStart(d)][i] == gauges[i];
  }

  lemma CounterOrder(source: string, d: Readings, i: nat)
    requires CountersStart(d) <= i < |Points(source, d)|
    ensures Points(source, d)[i] == CounterPoints(source, d)[i - CountersStart(d)]
  {
  }

  /** The order of the `q.add` calls for one database: index hits, cache
      hits, one `backends_<state>` per state, `backends_waiting`, the time
      metrics, then the scan and database-statistics counters. */
  lemma PointsOrder(source: string, d: Readings)
    ensures Points(source, d)[0] == Point(Prefix + "index_hits", Num(d.indexHits), Gauge, source)
    ensures Points(source, d)[1] == Point(Prefix + "cache_hits", Num(d.cacheHits), Gauge, source)
    ensures forall k :: 0 <= k < |d.states| ==>
      Points(source, d)[2 + k] == Point(Prefix + "backends_" + d.states[k].0, Whole(d.states[k].1), Gauge, source)
    ensures Points(source, d)[2 + |d.states|] == Point(Prefix + "backends_waiting", Whole(d.waiting), Gauge, source)
    ensures forall k :: 0 <= k < |d.times| ==>
      Points(source, d)[TimesStart(d) + k] == Point(Prefix + d.times[k].0, Num(d.times[k].1), Gauge, source)
    ensures forall k :: 0 <= k < |d.scans| ==>
      Points(source, d)[CountersStart(d) + k] == Point(Prefix + d.scans[k].0, Str(d.scans[k].1), Counter, source)
    ensures forall k :: 0 <= k < |d.dbStats| ==>
      Points(source, d)[CountersStart(d) + |d.scans| + k] == Point(Prefix + d.dbStats[k].0, Str(d.dbStats[k].1), Counter, source)
  {
    forall i | 0 <= i < TimesStart(d)
      ensures Points(source, d)[i] == ActivityPoints(source, d)[i]
    {
      ActivityOrder(source, d, i);
    }
    forall i | CountersStart(d) <= i < |Points(source, d)|
      ensures Points(source, d)[i] == CounterPoints(source, d)[i - CountersStart(d)]
    {
      CounterOrder(source, d, i);
    }
  }

  /** Every point of a database carries its source tag and the common
      prefix, and exactly the scans and database statistics are counters. */
  lemma PointsTaggedAndTyped(source: string, d: Readings)
    ensures forall i :: 0 <= i < |Points(source, d)| ==>
      && Points(source, d)[i].source == source
      && Prefix <= Points(source, d)[i].name
      && (Points(source, d)[i].kind == Counter <==> i >= CountersStart(d))
  {
    var ps := Points(source, d);
    PointsOrder(source, d);
    forall i | 0 <= i < |ps|
      ensures ps[i].source == source && Prefix <= ps[i].name
      ensures ps[i].kind == Counter <==> i >= CountersStart(d)
    {
      if i < 2 {
      } else if i < 2 + |d.states| {
        var k := i - 2;
        assert ps[2 + k].name == Prefix + ("backends_" + d.states[k].0);
      } else if i == 2 + |d.states| {
      } else if i < CountersStart(d) {
        var k := i - TimesStart(d);
        assert ps[TimesStart(d) + k].name == Prefix + d.times[k].0;
      } else if i < CountersStart(d) + |d.scans| {
        var k := i - CountersStart(d);
        assert ps[CountersStart(d) + k].name == Prefix + d.scans[k].0;
      } else {
        var k := i - CountersStart(d) - |d.scans|;
        assert ps[CountersStart(d) + |d.scans| + k].name == Prefix + d.dbStats[k].0;
      }
    }
  }
}

=== FILE: outcomes.dfy ===
/** Failure-compatible wrappers shared by the whole model, and the Python
    exception classes the collector can meet while talking to one database. */
module Outcomes {

  /** A value that may be SQL NULL (Python `None`). */
  datatype Option<+T> = None | Some(value: T)

  /** The outcome of a step that may raise: `Ok` carries the value, `Err` the
      exception. Usable with `:-`, so a raise abandons the rest of a chain. */
  datatype Result<+T, +E> = Ok(value: T) | Err(error: E) {

    predicate IsFailure() {
      Err?
    }

    function PropagateFailure<U>(): Result<U, E>
      requires Err?
    {
      Err(error)
    }

    function Extract(): T
      requires Ok?
    {
      value
    }
  }

  /** The exceptions the per-source handler catches (`except Exception`):
      a failing query raised by the driver, `int()` on a non-numeric string,
      `float()`/`round()` on `None`, and `res[0]` on an empty result. */
  datatype Fault = QueryError | ValueError | TypeError | IndexError
}

=== FILE: sweep.dfy ===
/** The loop over the configured databases, independent of what a single
    database does: each source's run adds its points and events in order,
    and the loop stops after a run that let an exception escape. */
module Sweeps {
  /** One source's part of a cycle: the points it queued, its events, and
      whether an exception escaped from it. */
  datatype Run<P, E> = Run(points: seq<P>, log: seq<E>, escaped: bool)

  /** What visiting a list of sources produced: the queued points, the
      events in order, and whether an exception escaped. */
  datatype Sweep<P, E> = Sweep(batch: seq<P>, log: seq<E>, escaped: bool)

  /** No run in the list let an exception escape. */
  predicate Calm<P, E>(runs: seq<Run<P, E>>)
  {
    forall i :: 0 <= i < |runs| ==> !runs[i].escaped
  }

  /** The `for db in config['databases']` loop over the runs of the sources,
      in configuration order: each run adds its points to the one queue of
      the cycle, and the loop stops after a run that let an exception
      escape. */
  function SweepRuns<P, E>(runs: seq<Run<P, E>>): (s: Sweep<P, E>)
  {
    if |runs| == 0 then Sweep([], [], false)
    else if runs[0].escaped then Sweep(runs[0].points, runs[0].log, true)
    else
      var rest := SweepRuns(runs[1..]);
      Sweep(runs[0].points + rest.batch, runs[0].log + rest.log, rest.escaped)
  }

  /** The sweep lets an exception escape exactly when one of the runs did. */
  lemma {:induction false} SweepEscapes<P, E>(runs: seq<Run<P, E>>)
    ensures SweepRuns(runs).escaped <==> !Calm(runs)
  {
    if |runs| > 0 && !runs[0].escaped {
      SweepEscapes(runs[1..]);
      if Calm(runs[1..]) {
        forall i | 0 < i < |runs| ensures !runs[i].escaped {
          assert runs[i] == runs[1..][i - 1];
        }
      } else {
        var i :| 0 <= i < |runs[1..]| && runs[1..][i].escaped;
        assert runs[i + 1].escaped;
      }
    }
  }

  /** Sources are visited independently: the sweep of `a + b` is the sweep of
      `a` followed by the sweep of `b`, as long as nothing escapes in `a`. */
  lemma {:induction false} SweepAppend<P, E>(a: seq<Run<P, E>>, b: seq<Run<P, E>>)
    requires Calm(a)
    ensures SweepRuns(a + b).batch == SweepRuns(a).batch + SweepRuns(b).batch
    ensures SweepRuns(a + b).log == SweepRuns(a).log + SweepRuns(b).log
    ensures SweepRuns(a + b).escaped == SweepRuns(b).escaped
  {
    if |a| == 0 {
      assert a + b == b;
    } else {
      assert (a + b)[0] == a[0];
      assert (a + b)[1..] == a[1..] + b;
      assert Calm(a[1..]) by {
        forall i | 0 <= i < |a[1..]| ensures !a[1..][i].escaped {
          assert a[1..][i] == a[i + 1];
        }
      }
      SweepAppend(a[1..], b);
      var head, s1, sb := a[0], SweepRuns(a[1..]), SweepRuns(b);
      assert !head.escaped;
      assert SweepRuns(a + b).batch == head.points + (s1.batch + sb.batch);
      assert SweepRuns(a).batch == head.points + s1.batch;
      assert head.points + (s1.batch + sb.batch) == head.points + s1.batch + sb.batch;
      assert SweepRuns(a + b).log == head.log + (s1.log + sb.log);
      assert SweepRuns(a).log == head.log + s1.log;
      assert head.log + (s1.log + sb.log) == head.log + s1.log + sb.log;
    }
  }

  /** Isolation: what one source contributes does not depend on the others.
      The batch of the cycle is the batch of the sources before it, then its
      own points, then the batch of the sources after it, and likewise for
      the log. */
  lemma SourceIsolated<P, E>(pre: seq<Run<P, E>>, run: Run<P, E>, post: seq<Run<P, E>>)
    requires Calm(pre) && !run.escaped
    ensures SweepRuns(pre + [run] + post).batch == SweepRuns(pre).batch + (run.points + SweepRuns(post).batch)
    ensures SweepRuns(pre + [run] + post).log == SweepRuns(pre).log + (run.log + SweepRuns(post).log)
  {
    var tail := [run] + post;
    assert pre + [run] + post == pre + tail;
    SweepAppend(pre, tail);
    assert tail[0] == run && tail[1..] == post;
  }

  /** A source that adds no points leaves the batch exactly as if it were
      not configured. */
  lemma EmptyRunContributesNothing<P, E>(pre: seq<Run<P, E>>, run: Run<P, E>, post: seq<Run<P, E>>)
    requires Calm(pre) && !run.escaped && run.points == []
    ensures SweepRuns(pre + [run] + post).batch == SweepRuns(pre + post).batch
  {
    SourceIsolated(pre, run, post);
    SweepAppend(pre, post);
    assert run.points + SweepRuns(post).batch == SweepRuns(post).batch;
  }

  /** The sweep of a single source is that source's run. */
  lemma SweepSingle<P, E>(run: Run<P, E>)
    ensures SweepRuns([run]).batch == run.points
    ensures SweepRuns([run]).log == run.log
    ensures SweepRuns([run]).escaped == run.escaped
  {
    if !run.escaped {
      assert [run][1..] == [];
      assert run.points + [] == run.points && run.log + [] == run.log;
    }
  }

  /** Every point in the batch was queued by one of the runs. */
  lemma {:induction false} BatchFromRuns<P, E>(runs: seq<Run<P, E>>)
    ensures forall p :: p in SweepRuns(runs).batch ==> exists j :: 0 <= j < |runs| && p in runs[j].points
  {
    if |runs| > 0 && !runs[0].escaped {
      BatchFromRuns(runs[1..]);
      forall p | p in SweepRuns(runs).batch
        ensures exists j :: 0 <= j < |runs| && p in runs[j].points
      {
        if p !in runs[0].points {
          var j :| 0 <= j < |runs[1..]| && p in runs[1..][j].points;
          assert runs[1..][j] == runs[j + 1];
        }
      }
    }
  }
}

=== FILE: text.dfy ===
/** String handling the collector relies on: splitting on one separator
    (Python's `str.split(sep)` and PostgreSQL's `split_part`), Python 2's
    `int(str)` and the decimal text that `str()` gives an integer. */
module Text {
  import opened Outcomes

  /** Splits `s` at every occurrence of `sep`, keeping empty fields, as
      Python's `s.split(sep)` does for an explicit separator. */
  function Split(s: string, sep: char): (parts: seq<string>)
    ensures |parts| >= 1
    ensures forall i :: 0 <= i < |parts| ==> sep !in parts[i]
  {
    if |s| == 0 then [""]
    else if s[0] == sep then [""] + Split(s[1..], sep)
    else
      var rest := Split(s[1..], sep);
      [[s[0]] + rest[0]] + rest[1..]
  }

  /** Puts the fields back together with `sep` between neighbours
      (Python's `sep.join(parts)`). */
  function Join(parts: seq<string>, sep: char): string
  {
    if |parts| == 0 then ""
    else if |parts| == 1 then parts[0]
    else parts[0] + [sep] + Join(parts[1..], sep)
  }

  /** Joining the fields of a split gives the original text back. */
  lemma {:induction false} JoinSplit(s: string, sep: char)
    ensures Join(Split(s, sep), sep) == s
  {
    if |s| == 0 {
    } else if s[0] == sep {
      var rest := Split(s[1..], sep);
      JoinSplit(s[1..], sep);
      assert ([""] + rest)[1..] == rest;
      assert Join([""] + rest, sep) == "" + [sep] + Join(rest, sep);
      assert s == [sep] + s[1..];
    } else {
      var rest := Split(s[1..], sep);
      JoinSplit(s[1..], sep);
      var parts := [[s[0]] + rest[0]] + rest[1..];
      if |rest| == 1 {
        assert Join(parts, sep) == [s[0]] + rest[0];
      } else {
        assert parts[1..] == rest[1..];
        assert Join(rest, sep) == rest[0] + [sep] + Join(rest[1..], sep);
        assert Join(parts, sep) == ([s[0]] + rest[0]) + [sep] + Join(rest[1..], sep);
      }
      assert s == [s[0]] + s[1..];
    }
  }

  /** A field free of the separator splits to itself. */
  lemma {:induction false} SplitNoSeparator(p: string, sep: char)
    requires sep !in p
    ensures Split(p, sep) == [p]
  {
    if |p| > 0 {
      assert sep !in p[1..];
      SplitNoSeparator(p[1..], sep);
      assert p == [p[0]] + p[1..];
    }
  }

  /** Splitting `p + sep + t`, with `p` free of the separator, yields `p`
      followed by the fields of `t`. */
  lemma {:induction false} SplitAfterField(p: string, sep: char, t: string)
    requires sep !in p
    ensures Split(p + [sep] + t, sep) == [p] + Split(t, sep)
  {
    if |p| == 0 {
      assert p + [sep] + t == [sep] + t;
      assert ([sep] + t)[1..] == t;
    } else {
      var s := p + [sep] + t;
      assert s[0] == p[0];
      assert s[1..] == p[1..] + [sep] + t;
      assert sep !in p[1..];
      SplitAfterField(p[1..], sep, t);
      assert p == [p[0]] + p[1..];
    }
  }

  /** The converse round trip: splitting a join of separator-free fields
      recovers exactly those fields. */
  lemma {:induction false} SplitJoin(parts: seq<string>, sep: char)
    requires |parts| >= 1
    requires forall i :: 0 <= i < |parts| ==> sep !in parts[i]
    ensures Split(Join(parts, sep), sep) == parts
  {
    if |parts| == 1 {
      SplitNoSeparator(parts[0], sep);
    } else {
      SplitJoin(parts[1..], sep);
      SplitAfterField(parts[0], sep, Join(parts[1..], sep));
      assert parts == [parts[0]] + parts[1..];
    }
  }

  /** PostgreSQL's `split_part(s, sep, n)`: the n-th field (counting from 1)
      of `s` split at `sep`, or the empty string when there are fewer fields. */
  function SplitPart(s: string, sep: char, n: nat): (field: string)
    requires n >= 1
    ensures sep !in field
    ensures n <= |Split(s, sep)| ==> field == Split(s, sep)[n - 1]
    ensures n > |Split(s, sep)| ==> field == ""
  {
    var fields := Split(s, sep);
    if n <= |fields| then fields[n - 1] else ""
  }

  /** The characters Python 2's `str.strip()` and `int()` treat as blank:
      space, tab, newline, vertical tab, form feed, carriage return. */
  predicate IsBlank(c: char)
  {
    c == ' ' || 9 <= c as int <= 13
  }

  /** Drops leading blanks. */
  function TrimStart(s: string): string
  {
    if |s| > 0 && IsBlank(s[0]) then TrimStart(s[1..]) else s
  }

  /** Drops trailing blanks. */
  function TrimEnd(s: string): string
  {
    if |s| > 0 && IsBlank(s[|s| - 1]) then TrimEnd(s[..|s| - 1]) else s
  }

  /** Python's `s.strip()`. */
  function Strip(s: string): string
  {
    TrimEnd(TrimStart(s))
  }

  /** `TrimStart` removes exactly the leading run of blanks. */
  lemma {:induction false} TrimStartSpec(s: string)
    ensures |TrimStart(s)| <= |s| && TrimStart(s) == s[|s| - |TrimStart(s)|..]
    ensures forall i :: 0 <= i < |s| - |TrimStart(s)| ==> IsBlank(s[i])
    ensures |TrimStart(s)| == 0 || !IsBlank(TrimStart(s)[0])
  {
    if |s| > 0 && IsBlank(s[0]) {
      TrimStartSpec(s[1..]);
      forall i | 1 <= i < |s| - |TrimStart(s)|
        ensures IsBlank(s[i])
      {
        assert s[i] == s[1..][i - 1];
      }
    }
  }

  /** `TrimEnd` removes exactly the trailing run of blanks. */
  lemma {:induction false} TrimEndSpec(s: string)
    ensures |TrimEnd(s)| <= |s| && TrimEnd(s) == s[..|TrimEnd(s)|]
    ensures forall i :: |TrimEnd(s)| <= i < |s| ==> IsBlank(s[i])
    ensures |TrimEnd(s)| == 0 || !IsBlank(TrimEnd(s)[|TrimEnd(s)| - 1])
  {
    if |s| > 0 && IsBlank(s[|s| - 1]) {
      TrimEndSpec(s[..|s| - 1]);
      forall i | |TrimEnd(s)| <= i < |s| - 1
        ensures IsBlank(s[i])
      {
        assert s[i] == s[..|s| - 1][i];
      }
    }
  }

  /** `Strip` keeps a contiguous piece of the text that neither starts nor
      ends with a blank, and everything it drops before or after that piece
      is blank. `lead` is the number of characters dropped in front. */
  lemma StripSpec(s: string) returns (lead: nat)
    ensures lead + |Strip(s)| <= |s| && Strip(s) == s[lead..lead + |Strip(s)|]
    ensures forall i :: 0 <= i < lead ==> IsBlank(s[i])
    ensures forall i :: lead + |Strip(s)| <= i < |s| ==> IsBlank(s[i])
    ensures |Strip(s)| == 0 || (!IsBlank(Strip(s)[0]) && !IsBlank(Strip(s)[|Strip(s)| - 1]))
  {
    var u := TrimStart(s);
    TrimStartSpec(s);
    TrimEndSpec(u);
    lead := |s| - |u|;
    var t := Strip(s);
    assert t == u[..|t|];
    forall i | lead + |t| <= i < |s|
      ensures IsBlank(s[i])
    {
      assert s[i] == u[i - lead];
    }
  }

  /** Text with no blank at either end is left alone by `Strip`. */
  lemma StripUnpadded(s: string)
    requires |s| == 0 || (!IsBlank(s[0]) && !IsBlank(s[|s| - 1]))
    ensures Strip(s) == s
  {
  }

  predicate IsDigit(c: char)
  {
    '0' <= c <= '9'
  }

  predicate AllDigits(s: string)
  {
    forall i :: 0 <= i < |s| ==> IsDigit(s[i])
  }

  function DigitChar(d: nat): (c: char)
    requires d < 10
    ensures IsDigit(c)
  {
    ('0' as int + d) as char
  }

  /** The value of a string of ASCII digits read in base 10. */
  function DigitsValue(s: string): nat
    requires AllDigits(s)
  {
    if |s| == 0 then 0
    else DigitsValue(s[..|s| - 1]) * 10 + (s[|s| - 1] as int - '0' as int)
  }

  /** The base-10 digits of a natural number, without leading zeros. */
  function Digits(n: nat): (s: string)
    ensures |s| >= 1 && AllDigits(s)
    ensures |s| > 1 ==> s[0] != '0'
  {
    if n < 10 then [DigitChar(n)] else Digits(n / 10) + [DigitChar(n % 10)]
  }

  /** `str(n)` for an integer: a minus sign for negatives, then the digits. */
  function Decimal(n: int): (s: string)
    ensures |s| >= 1 && !IsBlank(s[0]) && !IsBlank(s[|s| - 1])
    ensures '.' !in s
    ensures n >= 0 <==> AllDigits(s)
  {
    if n < 0 then "-" + Digits(-n) else Digits(n)
  }

  /** Reading the digits of `n` back gives `n`. */
  lemma {:induction false} DigitsValueOfDigits(n: nat)
    ensures DigitsValue(Digits(n)) == n
  {
    if n >= 10 {
      DigitsValueOfDigits(n / 10);
      var s := Digits(n);
      assert s[..|s| - 1] == Digits(n / 10);
    }
  }

  predicate IsSign(c: char)
  {
    c == '-' || c == '+'
  }

  predicate AllBlank(s: string)
  {
    forall i :: 0 <= i < |s| ==> IsBlank(s[i])
  }

  /** A magnitude with the sign written in front of it, if any. */
  function Signed(sign: string, n: nat): int
  {
    if sign == "-" then -(n as int) else n
  }

  /** What Python 2's `int()` accepts once the surrounding blanks are gone:
      an optional sign, then (after a sign) any further blanks, then at least
      one decimal digit making up the rest; anything else raises
      `ValueError`. */
  function ParseStripped(t: string): (r: Result<int, Fault>)
    ensures r.Err? ==> r.error == ValueError
    ensures t == "" ==> r.Err?
    ensures r.Ok? && r.value < 0 ==> t[0] == '-'
  {
    if |t| >= 1 && IsSign(t[0]) then
      var digits := TrimStart(t[1..]);
      if |digits| >= 1 && AllDigits(digits) then
        var magnitude: int := DigitsValue(digits);
        Ok(if t[0] == '-' then -magnitude else magnitude)
      else
        Err(ValueError)
    else if |t| >= 1 && AllDigits(t) then
      Ok(DigitsValue(t))
    else
      Err(ValueError)
  }

  /** Python 2's `int(s)` on a byte string: blanks around the literal and
      between its sign and its digits are ignored, and the rest must be a
      signed or unsigned decimal literal. */
  function ParseInt(s: string): (r: Result<int, Fault>)
    ensures r.Err? ==> r.error == ValueError
    ensures Strip(s) == "" ==> r.Err?
    ensures r.Ok? && r.value < 0 ==> Strip(s)[0] == '-'
  {
    ParseStripped(Strip(s))
  }

  /** Leading blanks in front of text that starts with a non-blank are
      exactly what `TrimStart` removes. */
  lemma {:induction false} TrimStartBlanks(lead: string, x: string)
    requires AllBlank(lead) && (|x| == 0 || !IsBlank(x[0]))
    ensures TrimStart(lead + x) == x
  {
    if |lead| == 0 {
      assert lead + x == x;
    } else {
      assert IsBlank(lead[0]);
      assert (lead + x)[1..] == lead[1..] + x;
      assert AllBlank(lead[1..]) by {
        forall i | 0 <= i < |lead[1..]| ensures IsBlank(lead[1..][i]) {
          assert lead[1..][i] == lead[i + 1];
        }
      }
      TrimStartBlanks(lead[1..], x);
    }
  }

  /** Trailing blanks after text that ends with a non-blank are exactly what
      `TrimEnd` removes. */
  lemma {:induction false} TrimEndBlanks(x: string, trail: string)
    requires AllBlank(trail) && (|x| == 0 || !IsBlank(x[|x| - 1]))
    ensures TrimEnd(x + trail) == x
  {
    if |trail| == 0 {
      assert x + trail == x;
    } else {
      var s := x + trail;
      assert IsBlank(s[|s| - 1]);
      var shorter := trail[..|trail| - 1];
      assert s[..|s| - 1] == x + shorter;
      assert AllBlank(shorter) by {
        forall i | 0 <= i < |shorter| ensures IsBlank(shorter[i]) {
          assert shorter[i] == trail[i];
        }
      }
      TrimEndBlanks(x, shorter);
    }
  }

  /** Blanks around a piece that neither starts nor ends with a blank are
      exactly what `Strip` removes. */
  lemma StripAround(lead: string, body: string, trail: string)
    requires AllBlank(lead) && AllBlank(trail)
    requires |body| >= 1 && !IsBlank(body[0]) && !IsBlank(body[|body| - 1])
    ensures Strip(lead + body + trail) == body
  {
    assert lead + body + trail == lead + (body + trail);
    assert TrimStart(lead + (body + trail)) == body + trail by {
      TrimStartBlanks(lead, body + trail);
    }
    TrimEndBlanks(body, trail);
  }

  /** After a sign and blanks, `TrimStart` leaves exactly the digits. */
  lemma SignedTail(c: char, gap: string, digits: string)
    requires AllBlank(gap)
    requires |digits| >= 1 && AllDigits(digits)
    ensures ([c] + gap + digits)[0] == c
    ensures TrimStart(([c] + gap + digits)[1..]) == digits
  {
    var t := [c] + gap + digits;
    assert t[1..] == gap + digits;
    assert IsDigit(digits[0]);
    TrimStartBlanks(gap, digits);
  }

  /** A one-character sign string applied to a magnitude. */
  lemma SignedByChar(c: char, n: nat)
    ensures Signed([c], n) == if c == '-' then -(n as int) else n
  {
    if c != '-' {
      assert [c][0] != "-"[0];
    }
  }

  /** Text that starts with a sign followed, after any blanks, by digits
      parses to the value of those digits with that sign. */
  lemma ParseStrippedAfterSign(t: string, digits: string)
    requires |t| >= 1 && IsSign(t[0])
    requires TrimStart(t[1..]) == digits && |digits| >= 1 && AllDigits(digits)
    ensures ParseStripped(t) == Ok(if t[0] == '-' then -(DigitsValue(digits) as int) else DigitsValue(digits))
  {
  }

  /** A sign, blanks and digits parse to the digits' value with that sign. */
  lemma ParseStrippedSigned(c: char, gap: string, digits: string)
    requires IsSign(c) && AllBlank(gap)
    requires |digits| >= 1 && AllDigits(digits)
    ensures ParseStripped([c] + gap + digits) == Ok(Signed([c], DigitsValue(digits)))
  {
    SignedTail(c, gap, digits);
    ParseStrippedAfterSign([c] + gap + digits, digits);
    SignedByChar(c, DigitsValue(digits));
  }

  /** The stripped form of an accepted text parses to its signed value. */
  lemma ParseStrippedAccepts(sign: string, gap: string, digits: string)
    requires AllBlank(gap)
    requires sign == "" || sign == "-" || sign == "+"
    requires sign == "" ==> gap == ""
    requires |digits| >= 1 && AllDigits(digits)
    ensures ParseStripped(sign + gap + digits) == Ok(Signed(sign, DigitsValue(digits)))
  {
    if sign == "" {
      assert sign + gap + digits == digits;
      assert !IsSign(digits[0]);
    } else {
      assert sign == [sign[0]];
      ParseStrippedSigned(sign[0], gap, digits);
    }
  }

  /** How the five pieces of an accepted text group around its literal. */
  lemma Regroup(lead: string, sign: string, gap: string, digits: string, trail: string)
    requires |digits| >= 1
    ensures lead + sign + gap + digits + trail == lead + (sign + gap + digits) + trail
    ensures (sign + gap + digits)[|sign + gap + digits| - 1] == digits[|digits| - 1]
    ensures sign != "" ==> (sign + gap + digits)[0] == sign[0]
    ensures sign == "" && gap == "" ==> (sign + gap + digits)[0] == digits[0]
  {
  }

  /** Every text `int()` should accept parses to its value: blanks, an
      optional sign, blanks only after a sign, at least one digit, blanks. */
  lemma ParseIntAccepts(lead: string, sign: string, gap: string, digits: string, trail: string)
    requires AllBlank(lead) && AllBlank(gap) && AllBlank(trail)
    requires sign == "" || sign == "-" || sign == "+"
    requires sign == "" ==> gap == ""
    requires |digits| >= 1 && AllDigits(digits)
    ensures ParseInt(lead + sign + gap + digits + trail) == Ok(Signed(sign, DigitsValue(digits)))
  {
    var s := lead + sign + gap + digits + trail;
    var body := sign + gap + digits;
    Regroup(lead, sign, gap, digits, trail);
    assert Strip(s) == body by {
      assert IsDigit(digits[0]) && IsDigit(digits[|digits| - 1]);
      StripAround(lead, body, trail);
    }
    assert ParseStripped(body) == Ok(Signed(sign, DigitsValue(digits))) by {
      ParseStrippedAccepts(sign, gap, digits);
    }
    assert ParseInt(s) == ParseStripped(body);
  }

  /** Every stripped text `int()` accepts is an optional sign, blanks only
      after a sign, then digits. */
  lemma ParseStrippedShape(t: string) returns (sign: string, gap: string, digits: string)
    requires ParseStripped(t).Ok?
    ensures t == sign + gap + digits
    ensures AllBlank(gap)
    ensures sign == "" || sign == "-" || sign == "+"
    ensures sign == "" ==> gap == ""
    ensures |digits| >= 1 && AllDigits(digits)
    ensures ParseStripped(t) == Ok(Signed(sign, DigitsValue(digits)))
  {
    if |t| >= 1 && IsSign(t[0]) {
      sign := [t[0]];
      var u := t[1..];
      digits := TrimStart(u);
      TrimStartSpec(u);
      gap := u[..|u| - |digits|];
      assert u == gap + digits;
      assert t == sign + u;
    } else {
      sign, gap, digits := "", "", t;
      assert t == sign + gap + digits;
    }
  }

  /** Conversely, every text `int()` accepts has that shape, and its value is
      the signed value of its digits. */
  lemma ParseIntShape(s: string) returns (lead: string, sign: string, gap: string, digits: string, trail: string)
    requires ParseInt(s).Ok?
    ensures s == lead + sign + gap + digits + trail
    ensures AllBlank(lead) && AllBlank(gap) && AllBlank(trail)
    ensures sign == "" || sign == "-" || sign == "+"
    ensures sign == "" ==> gap == ""
    ensures |digits| >= 1 && AllDigits(digits)
    ensures ParseInt(s) == Ok(Signed(sign, DigitsValue(digits)))
  {
    var t := Strip(s);
    lead, trail := StripPieces(s);
    sign, gap, digits := ParseStrippedShape(t);
    assert s == lead + sign + gap + digits + trail by {
      Regroup(lead, sign, gap, digits, trail);
    }
    assert ParseInt(s) == ParseStripped(t);
  }

  /** `Strip` splits its text into blanks, the stripped piece and blanks. */
  lemma StripPieces(s: string) returns (lead: string, trail: string)
    ensures s == lead + Strip(s) + trail
    ensures AllBlank(lead) && AllBlank(trail)
  {
    var t := Strip(s);
    var k := StripSpec(s);
    lead, trail := s[..k], s[k + |t|..];
    assert s == lead + t + trail;
  }

  /** Text with no blank anywhere that `int()` accepts is digits after its
      first character. */
  lemma DigitsAfterFirst(word: string)
    requires forall k :: 0 <= k < |word| ==> !IsBlank(word[k])
    requires ParseInt(word).Ok?
    ensures forall j :: 1 <= j < |word| ==> IsDigit(word[j])
  {
    StripUnpadded(word);
    var sign, gap, digits := ParseStrippedShape(word);
    assert gap == "";
    if sign == "" {
      assert word == digits;
    } else {
      assert word[1..] == digits;
    }
  }

  /** Text with no blank anywhere and a non-digit after its first character
      is refused by `int()`. */
  lemma ParseIntRejects(word: string, i: nat)
    requires forall k :: 0 <= k < |word| ==> !IsBlank(word[k])
    requires 1 <= i < |word| && !IsDigit(word[i])
    ensures ParseInt(word).Err?
  {
    if ParseInt(word).Ok? {
      DigitsAfterFirst(word);
      assert false;
    }
  }

  /** Blanks between the sign and the digits are skipped: `int("- 1")` and
      `int("-\t1")` are both -1. */
  lemma SignGapExamples()
    ensures ParseInt("- 1") == Ok(-1)
    ensures ParseInt("-\t1") == Ok(-1)
    ensures ParseInt(" +7 ") == Ok(7)
  {
    ParseIntAccepts("", "-", " ", "1", "");
    assert "" + "-" + " " + "1" + "" == "- 1";
    ParseIntAccepts("", "-", "\t", "1", "");
    assert "" + "-" + "\t" + "1" + "" == "-\t1";
    ParseIntAccepts(" ", "+", "", "7", " ");
    assert " " + "+" + "" + "7" + " " == " +7 ";
  }

  /** Unsigned digit strings parse to their value. */
  lemma ParseUnsigned(t: string)
    requires |t| >= 1 && AllDigits(t)
    ensures ParseInt(t) == Ok(DigitsValue(t))
  {
    assert IsDigit(t[0]) && IsDigit(t[|t| - 1]);
    StripUnpadded(t);
    assert "" + "" + t == t;
    ParseStrippedAccepts("", "", t);
  }

  /** A minus sign followed by digits parses to the negated value. */
  lemma ParseNegative(d: string)
    requires |d| >= 1 && AllDigits(d)
    ensures ParseInt("-" + d) == Ok(-(DigitsValue(d) as int))
  {
    var t := "-" + d;
    assert IsDigit(d[|d| - 1]);
    StripUnpadded(t);
    assert ['-'] + "" + d == t;
    ParseStrippedSigned('-', "", d);
  }

  /** `int(str(n)) == n` for negative `n`. */
  lemma ParseIntDecimalNegative(n: int)
    requires n < 0
    ensures ParseInt(Decimal(n)) == Ok(n)
  {
    var d := Digits(-n);
    assert DigitsValue(d) == -n by { DigitsValueOfDigits(-n); }
    assert ParseInt("-" + d) == Ok(n) by { ParseNegative(d); }
    assert Decimal(n) == "-" + d;
  }

  /** `int(str(n)) == n`: the decimal text of any integer parses back to it. */
  lemma ParseIntDecimal(n: int)
    ensures ParseInt(Decimal(n)) == Ok(n)
  {
    if n < 0 {
      ParseIntDecimalNegative(n);
    } else {
      ParseUnsigned(Digits(n));
      DigitsValueOfDigits(n);
    }
  }
}

=== FILE: version.dfy ===
/** The server version: parsed from the `version()` banner into a tuple of
    integers and compared with (9, 2) in Python's tuple order to choose
    between the pre-9.2 and the 9.2+ query variants. */
module Version {
  import opened Outcomes
  import opened Text

  /** A Python tuple of ints such as (9, 6, 3). */
  type Version = seq<int>

  /** Which family of statistics views a query is written against. */
  datatype Era = Legacy | Modern

  /** `map(int, parts)`: every component converted in order; the first one
      that is not an integer literal raises and the whole parse fails. */
  function ParseComponents(parts: seq<string>): (r: Result<Version, Fault>)
    ensures r.Ok? ==> |r.value| == |parts|
    ensures r.Ok? ==> forall i :: 0 <= i < |parts| ==> ParseInt(parts[i]) == Ok(r.value[i])
    ensures r.Err? <==> exists i :: 0 <= i < |parts| && ParseInt(parts[i]).Err?
    ensures r.Err? ==> r.error == ValueError
  {
    if |parts| == 0 then Ok([])
    else
      match ParseInt(parts[0])
      case Err(e) => Err(e)
      case Ok(head) =>
        match ParseComponents(parts[1..])
        case Err(e) =>
          assert exists i :: 0 <= i < |parts| && ParseInt(parts[i]).Err? by {
            var j :| 0 <= j < |parts[1..]| && ParseInt(parts[1..][j]).Err?;
            assert parts[j + 1] == parts[1..][j];
          }
          Err(e)
        case Ok(tail) =>
          assert forall i :: 1 <= i < |parts| ==> parts[i] == parts[1..][i - 1];
          Ok([head] + tail)
  }

  /** `tuple(map(int, token.split(".")))`. */
  function ParseVersion(token: string): (r: Result<Version, Fault>)
    ensures r.Ok? ==> |r.value| == |Split(token, '.')| >= 1
    ensures r.Ok? ==> forall i :: 0 <= i < |r.value| ==> ParseInt(Split(token, '.')[i]) == Ok(r.value[i])
    ensures r.Ok? <==> forall i :: 0 <= i < |Split(token, '.')| ==> ParseInt(Split(token, '.')[i]).Ok?
    ensures r.Err? ==> r.error == ValueError
  {
    var parts := Split(token, '.');
    var r := ParseComponents(parts);
    assert r.Err? ==> exists i :: 0 <= i < |parts| && ParseInt(parts[i]).Err?;
    r
  }

  /** `fetch_pg_version`: the reply of `SELECT split_part(version(), ' ', 2)`
      is the second space-separated word of the banner; its dotted components
      become the version. A failing query, or a word that is not made of
      integers (`10beta1`), raises. */
  function FetchVersion(reply: Result<string, Fault>): Result<Version, Fault>
  {
    var banner :- reply;
    ParseVersion(SplitPart(banner, ' ', 2))
  }

  /** The dotted text of a version, the partner of `ParseVersion`. */
  function FormatVersion(v: Version): string
  {
    Join(DecimalAll(v), '.')
  }

  function DecimalAll(v: Version): (parts: seq<string>)
    ensures |parts| == |v|
    ensures forall i :: 0 <= i < |v| ==> parts[i] == Decimal(v[i])
  {
    if |v| == 0 then [] else [Decimal(v[0])] + DecimalAll(v[1..])
  }

  /** Parsing the dotted text of any non-empty version gives it back. */
  lemma VersionRoundTrip(v: Version)
    requires |v| >= 1
    ensures ParseVersion(FormatVersion(v)) == Ok(v)
  {
    var parts := DecimalAll(v);
    SplitJoin(parts, '.');
    forall i | 0 <= i < |v|
      ensures ParseInt(parts[i]) == Ok(v[i])
    {
      ParseIntDecimal(v[i]);
    }
    var r := ParseComponents(parts);
    assert r.Ok?;
    assert r.value == v;
  }

  /** The dotted text of a version contains no space. */
  lemma {:induction false} NoSpaceInFormat(v: Version)
    ensures ' ' !in FormatVersion(v)
  {
    if |v| > 1 {
      NoSpaceInFormat(v[1..]);
      assert DecimalAll(v)[1..] == DecimalAll(v[1..]);
    }
  }

  /** The banner `"<product> <a.b.c> <anything>"` yields the version (a, b, c):
      `split_part` picks the dotted word and its components parse back. */
  lemma BannerVersion(product: string, v: Version, rest: string)
    requires ' ' !in product
    requires |v| >= 1
    ensures FetchVersion(Ok(product + [' '] + FormatVersion(v) + [' '] + rest)) == Ok(v)
  {
    var word := FormatVersion(v);
    NoSpaceInFormat(v);
    SplitAfterField(product, ' ', word + [' '] + rest);
    SplitAfterField(word, ' ', rest);
    assert product + [' '] + word + [' '] + rest == product + [' '] + (word + [' '] + rest);
    assert SplitPart(product + [' '] + word + [' '] + rest, ' ', 2) == word;
    VersionRoundTrip(v);
  }

  /** Components that each parse give the version of their values. */
  lemma ComponentsParse(parts: seq<string>, v: Version)
    requires |parts| == |v|
    requires forall i :: 0 <= i < |parts| ==> ParseInt(parts[i]) == Ok(v[i])
    ensures ParseComponents(parts) == Ok(v)
  {
    var r := ParseComponents(parts);
    assert r.Ok?;
    assert r.value == v;
  }

  /** The components `9` and `-<tab>1` parse to 9 and -1. */
  lemma SignedComponentParts()
    ensures ParseComponents(["9", "-\t1"]) == Ok([9, -1])
  {
    var parts: seq<string> := ["9", "-\t1"];
    var v: Version := [9, -1];
    assert ParseInt(parts[0]) == Ok(v[0]) by {
      ParseUnsigned("9");
      assert DigitsValue("9") == 9;
    }
    assert ParseInt(parts[1]) == Ok(v[1]) by {
      SignGapExamples();
    }
    ComponentsParse(parts, v);
  }

  /** Blanks after a component's sign are skipped like the blanks around
      it, so a tab inside the second word does not stop the parse: a banner
      such as `PostgreSQL 9.-<tab>1` gives the version (9, -1). */
  lemma SignedComponentBanner(product: string)
    requires ' ' !in product
    ensures FetchVersion(Ok(product + " 9.-\t1")) == Ok([9, -1])
  {
    var word := "9.-\t1";
    assert SplitPart(product + " 9.-\t1", ' ', 2) == word by {
      assert product + " 9.-\t1" == product + [' '] + word;
      SplitAfterField(product, ' ', word);
      SplitNoSeparator(word, ' ');
    }
    assert Split(word, '.') == ["9", "-\t1"] by {
      assert word == "9" + ['.'] + "-\t1";
      SplitAfterField("9", '.', "-\t1");
      SplitNoSeparator("-\t1", '.');
    }
    SignedComponentParts();
  }

  /** A banner whose second word is not a dotted list of integers, such as
      the `10beta1` of a development build, makes the version fetch raise. */
  lemma NonNumericWordFails(product: string, word: string, i: nat)
    requires ' ' !in product && '.' !in word
    requires forall k :: 0 <= k < |word| ==> !IsBlank(word[k])
    requires 1 <= i < |word| && !IsDigit(word[i])
    ensures FetchVersion(Ok(product + [' '] + word)).Err?
  {
    assert forall k :: 0 <= k < |word| ==> word[k] != ' ';
    assert ' ' !in word;
    SplitAfterField(product, ' ', word);
    SplitNoSeparator(word, ' ');
    SplitNoSeparator(word, '.');
    assert ParseInt(word).Err? by { ParseIntRejects(word, i); }
  }

  lemma BetaBannerFails()
    ensures FetchVersion(Ok("PostgreSQL 10beta1")).Err?
  {
    var product, word := "PostgreSQL", "10beta1";
    assert product + [' '] + word == "PostgreSQL 10beta1";
    NonNumericWordFails(product, word, 2);
  }

  /** Python's `a < b` on tuples of ints: the first differing position
      decides, and a proper prefix is smaller. */
  predicate LexLess(a: Version, b: Version)
  {
    if |b| == 0 then false
    else if |a| == 0 then true
    else if a[0] != b[0] then a[0] < b[0]
    else LexLess(a[1..], b[1..])
  }

  /** Python's `a >= b` on tuples of ints: the first differing position
      decides, and when one is a prefix of the other the longer is greater. */
  predicate LexAtLeast(a: Version, b: Version)
  {
    if |a| == 0 || |b| == 0 then |a| >= |b|
    else if a[0] != b[0] then a[0] > b[0]
    else LexAtLeast(a[1..], b[1..])
  }

  /** The textbook definition of lexicographic order: a common prefix of
      length k, after which `a` either ends while `b` goes on, or is smaller. */
  ghost predicate SmallerAt(a: Version, b: Version, k: nat)
  {
    k <= |a| && k < |b| && a[..k] == b[..k] && (k == |a| || a[k] < b[k])
  }

  /** `LexLess` is exactly the textbook order, in both directions. */
  lemma {:induction false} LexLessIff(a: Version, b: Version)
    ensures LexLess(a, b) <==> exists k: nat :: SmallerAt(a, b, k)
  {
    if |b| == 0 {
    } else if |a| == 0 {
      assert SmallerAt(a, b, 0);
    } else if a[0] != b[0] {
      if a[0] < b[0] {
        assert SmallerAt(a, b, 0);
      } else {
        forall k: nat ensures !SmallerAt(a, b, k) {
          if 0 < k <= |a| && k < |b| {
            assert a[..k][0] == a[0];
          }
        }
      }
    } else {
      LexLessIff(a[1..], b[1..]);
      if LexLess(a, b) {
        var k: nat :| SmallerAt(a[1..], b[1..], k);
        assert a[..k + 1] == [a[0]] + a[1..][..k];
        assert b[..k + 1] == [b[0]] + b[1..][..k];
        assert SmallerAt(a, b, k + 1);
      } else {
        forall k: nat | SmallerAt(a, b, k) ensures false {
          assert k > 0;
          assert a[1..][..k - 1] == a[..k][1..];
          assert b[1..][..k - 1] == b[..k][1..];
          assert SmallerAt(a[1..], b[1..], k - 1);
        }
      }
    }
  }

  /** Python's `>=` on tuples is the complement of `<`: the two gates in the
      source can never both be taken nor both be skipped. */
  lemma {:induction false} AtLeastIsNotLess(a: Version, b: Version)
    ensures LexAtLeast(a, b) <==> !LexLess(a, b)
  {
    if |a| > 0 && |b| > 0 && a[0] == b[0] {
      AtLeastIsNotLess(a[1..], b[1..]);
    }
  }

  /** The order is strict: no tuple is smaller than itself. */
  lemma {:induction false} LexLessIrreflexive(a: Version)
    ensures !LexLess(a, a)
  {
    if |a| > 0 {
      LexLessIrreflexive(a[1..]);
    }
  }

  /** The order is transitive. */
  lemma {:induction false} LexLessTransitive(a: Version, b: Version, c: Version)
    requires LexLess(a, b) && LexLess(b, c)
    ensures LexLess(a, c)
  {
    if |a| > 0 && a[0] == b[0] && b[0] == c[0] {
      LexLessTransitive(a[1..], b[1..], c[1..]);
    }
  }

  /** Any two distinct tuples are ordered one way or the other. */
  lemma {:induction false} LexLessTotal(a: Version, b: Version)
    requires a != b
    ensures LexLess(a, b) || LexLess(b, a)
  {
    if |a| > 0 && |b| > 0 && a[0] == b[0] {
      assert a == [a[0]] + a[1..];
      assert b == [b[0]] + b[1..];
      LexLessTotal(a[1..], b[1..]);
    }
  }

  /** The release that introduced the `state` column of `pg_stat_activity`. */
  const Release92: Version := [9, 2]

  /** Unfolds `version < (9,2)` into comparisons of the first two components. */
  lemma Below92(v: Version)
    ensures LexLess(v, Release92) <==> (|v| == 0 || v[0] < 9 || (v[0] == 9 && (|v| == 1 || v[1] < 2)))
  {
    if |v| >= 1 && v[0] == 9 {
      assert Release92[1..] == [2];
      if |v| >= 2 && v[1] == 2 {
        assert LexLess(v[1..], [2]) == LexLess(v[2..], []);
      }
    }
  }

  /** The gate of `fetch_backend_states` and `fetch_backend_times`
      (`version < (9,2)`): legacy exactly for the empty tuple, a major below 9,
      a bare 9, or 9 with a minor below 2. */
  function QueryEra(v: Version): (e: Era)
    ensures e == Legacy <==> (|v| == 0 || v[0] < 9 || (v[0] == 9 && (|v| == 1 || v[1] < 2)))
  {
    Below92(v);
    if LexLess(v, Release92) then Legacy else Modern
  }

  /** The gate of `fetch_db_stats` (`version >= (9,2)`), which picks the
      extended column list: modern exactly for a major above 9, or 9 with a
      minor of at least 2. */
  function StatsEra(v: Version): (e: Era)
    ensures e == Modern <==> (|v| >= 1 && (v[0] > 9 || (v[0] == 9 && |v| >= 2 && v[1] >= 2)))
  {
    AtLeastIsNotLess(v, Release92);
    Below92(v);
    if LexAtLeast(v, Release92) then Modern else Legacy
  }

  /** The two gates agree on every version, so a server gets the extended
      column list exactly when it gets the 9.2+ activity queries. */
  lemma GatesAgree(v: Version)
    ensures StatsEra(v) == QueryEra(v)
  {
    AtLeastIsNotLess(v, Release92);
  }

  /** Boundary cases of the gate: a bare (9,) is older than (9,2), while
      (9,2,0) and (10,) are not. */
  lemma GateBoundaries()
    ensures QueryEra([9]) == Legacy
    ensures QueryEra([9, 1, 24]) == Legacy
    ensures QueryEra([9, 2]) == Modern
    ensures QueryEra([9, 2, 0]) == Modern
    ensures QueryEra([10]) == Modern
    ensures QueryEra([8, 4, 22]) == Legacy
  {
  }
}
